=== FILE: README.md ===
# ZCABot decision logic in Dafny

ZCABot is a moderation bot for one Discord guild. This project models its decision logic as pure functions over immutable values.

- **Temporary roles.** Staff grant a role for a bounded time. Each grant is a `RoleTimeout` record (user id, role id, expiration) in a list mirrored to a text file, one `UserID RoleID Ticks` line per record. A background sweep drops the expired records and asks the platform to revoke their roles.
- **Highlights.** A role mention is throttled by a 15-minute cooldown shared by every caller.
- **Commands.** Members can add and remove the self-service ("join") roles, ask for help, and request highlights. Replies and effects depend on the caller's tier (member, staff, manager).
- **Tokenisers.** Space splitting with empty pieces dropped, and the quote-aware `SplitQuoted`.
- **The JavaScript edition** (`index.js`) of the highlight command.

The Discord client is replaced by a `Guild` snapshot:

- roles are `(id, name)` pairs in guild order;
- members carry a username, an optional nickname and a set of role ids.

Every handler returns an outcome value in place of performing its effect. The outcome says which reply is sent, or which role is added or removed. The clock is a parameter:

- C# time is a `DateTime` tick count (10^7 per second);
- JavaScript time is in milliseconds.

The store file is a sequence of lines.

Modules:

- `Wrappers`: `Option` and `Result`.
- `Numbers`: 32-bit wrap-around and truncating division.
- `Seqs`: first-index search.
- `Text`: ASCII case mapping, split and join, words, decimal printing and parsing.
- `Platform`: the guild snapshot, constants, authorisation, role lookup and new-account age (Bot.cs).
- `RoleTimeouts`: RoleTimeout.cs and Bot.EventLoop.cs.
- `Roles`: Bot.Roles.cs.
- `Commands`: Bot.Commands.cs.
- `Dispatch`: message handling in Bot.cs.
- `QuotedSplit`: Util.cs.
- `LegacyBot`: index.js.

Behaviour of the code that the model keeps:

- **Sweep boundary.** A record is dropped only when its expiration is strictly before `now`. A record expiring exactly at `now` is kept until the next pass (Bot.EventLoop.cs:112).
- **Unreadable numbers.** A line whose numbers do not parse is not a corrupt record: each unparsable field reads as 0. Only a line with fewer than three fields, or a tick field that `DateTime.FromBinary` cannot turn into a valid `DateTime`, aborts the load. A negative tick field is read as a local-kind value: `1 2 -1` loads as a record expiring late on the first day of year 1.
- **Grants.** A successful grant does not append a timeout record. `GiveTemporaryRole` schedules an in-memory delayed removal and never calls `AddRoleTimeout` (Bot.Roles.cs:140-148). The grant and the store are therefore modelled separately; `RoleTimeouts.AddThenSweep` shows what the store does when a record is added.
- **Where commands are accepted.** Only `highlight` is accepted in channels. `addRole`, `removeRole`, `giveRole`, `help` and `crash` are accepted in direct messages only.
- **Call arity.** Two calls in the partial class do not match their definitions: `HandleHighlight` is called with four arguments and `GiveTemporaryRole` with one. The model follows the method bodies. It passes the message's tokens and the sender's name.
- **`findRoleFromName` in index.js.** index.js calls it but does not define it. It is taken to be the same first case-insensitive match as the C# `FindRoleFromName`, as the doc comment of `findHighlightableRole` describes (index.js:42-48).
- **Other undefined helpers in index.js.** `sendChannelMessage` (index.js:94, 102, 108, 139) and `setDebugChannel` (index.js:220) are called but not defined. The model takes `sendChannelMessage(channel, text)` to post `text` in `channel`. `setDebugChannel` only concerns logging and is left out.
- **Uncaught platform failures.** The sweep waits on each `RemoveRoleAsync` (Bot.EventLoop.cs:132), and the thread's `try`/`finally` (Bot.EventLoop.cs:30-37) has no `catch`. A failed call therefore ends the pass before `RemoveAll` and the rewrite, and ends the thread. `RoleTimeouts.SweepWithFailures` models this.

## Model

| member | source | states |
|---|---|---|
| Platform.GetUser | Bot.cs:82-86 | the member returned has the requested id; none is returned exactly when no member has it |
| Platform.GetRole | Bot.EventLoop.cs:124 | the role returned has the requested id; none exactly when no role has it |
| Platform.HasRole | Bot.cs:82-86 | a user holds a role iff the first member with the user's id has it; a user outside the guild holds none |
| Platform.TierOf | Bot.cs:50-54 | manager tier iff the caller holds the manager role; staff tier iff staff and not manager |
| Platform.StaffOrManagerIsTierAboveMember | Bot.cs:50-54 | staff-or-manager is exactly "above the member tier"; a user outside the guild is in the member tier |
| Platform.FindRoleFromName | Bot.cs:149-153 | the role found matches the name ignoring case and no earlier role does; none exactly when no role matches |
| Platform.CreationMs | Bot.cs:124 | the creation time a snowflake encodes lies between the Discord epoch and 2^63 ms |
| Platform.NewAccountIffUnderAWeek | Bot.cs:122-130 | an account is new iff it was created less than 7 × 86400000 ms before now, counting whole days truncated toward zero |
| Text.Words | Bot.cs:165 | every word is non-empty and holds no space |
| Text.WordsOfJoin | Bot.Commands.cs:164 | splitting words joined by single spaces gives the words back |
| Text.NoWordsIffBlank | Bot.cs:165-167 | a message has no tokens iff it is empty or all spaces |
| Text.JoinSplit | Bot.EventLoop.cs:54 | joining the pieces of `Split(' ')` with spaces restores the line |
| Text.SplitOn | Bot.EventLoop.cs:54 | there is always at least one piece and no piece holds the separator |
| Text.SplitJoin | Bot.EventLoop.cs:93 | splitting a space-joined list of space-free fields restores the fields |
| Text.ParseDecimal | Bot.EventLoop.cs:55-57 | parsing the decimal text of a number gives the number back |
| Text.ParseSignedDecimal | Bot.EventLoop.cs:55-57 | a `-` before the decimal text of a number parses to its negation, a `+` to the number itself |
| Text.TryParseInRange | Bot.EventLoop.cs:55-57 | a value is produced iff the text parses to an integer inside the type's range |
| Text.ParseInteger | Bot.EventLoop.cs:55-57 | a value is produced iff the text is an optional sign followed by at least one digit; digits give their decimal value, negated after a leading `-` and unchanged after a leading `+` |
| RoleTimeouts.Serialize | Bot.EventLoop.cs:88-96 | the rewrite emits one line per record |
| RoleTimeouts.SerializeLayout | Bot.EventLoop.cs:92-93 | line i holds exactly three single-space-separated decimal fields: record i's user id, role id and ticks |
| RoleTimeouts.FormatLineFields | Bot.EventLoop.cs:93 | one record's line splits into its three decimal fields |
| RoleTimeouts.FieldU64 | Bot.EventLoop.cs:55-56 | a field that is not an optional sign followed by digits reads as 0; a parsed value inside 0..2^64-1 is taken as is; a negative or too large one reads as 0; a non-zero result is always the field's parsed value |
| RoleTimeouts.FieldI64 | Bot.EventLoop.cs:57 | a field that is not an optional sign followed by digits reads as 0; a parsed value inside -2^63..2^63-1 is taken as is, anything outside reads as 0 |
| RoleTimeouts.FromBinary | Bot.EventLoop.cs:59 | an in-range tick count is taken as is; a non-negative value keeps its low 62 bits and fails exactly when they exceed `DateTime.MaxValue`; a negative value does the same unless its low 62 bits lie in the last day below 2^62, in which case it always converts, to a time on the first day |
| RoleTimeouts.NegativeTicksWrapToFirstDay | Bot.EventLoop.cs:59 | a tick field between minus one day and 0 converts to that value plus one day |
| RoleTimeouts.MinusOneTickLineLoads | Bot.EventLoop.cs:54-60 | the line `1 2 -1` is read as user 1, role 2, expiring one tick before the end of the first day |
| RoleTimeouts.ParseLine | Bot.EventLoop.cs:54-60 | too few fields iff `Split(" ")` yields fewer than three pieces; tick out of range iff there are three and the third field's conversion fails; otherwise the record is the first field as user id, the second as role id and the third's converted ticks |
| RoleTimeouts.UnparsableFieldsReadAsZero | Bot.EventLoop.cs:55-59 | an unparsable user or role field reads as 0; an unparsable tick field gives a record expiring at tick 0 rather than an error |
| RoleTimeouts.ParseFormatLine | Bot.EventLoop.cs:54-60 | every record's written line parses back to the same record |
| RoleTimeouts.FieldsReadDecimal | Bot.EventLoop.cs:55-57 | the decimal text of a number below 2^64 reads back as that id, and of one below 2^63 as that tick count |
| RoleTimeouts.Load | Bot.EventLoop.cs:44-71 | the load succeeds iff every line parses, with record i from line i; a failure names the first bad line and its reason, so no partial list survives |
| RoleTimeouts.LoadSerialize | Bot.EventLoop.cs:44-96 | reading back a rewritten file restores the list exactly, same records in the same order |
| RoleTimeouts.LoadAtStartup | Bot.EventLoop.cs:19-22 | a missing file gives the empty list; start-up succeeds iff the file is missing or every line parses, with one record per line |
| RoleTimeouts.MissingFileLoadsEmpty | Bot.EventLoop.cs:73-86 | a missing file is created empty and loads as the empty list |
| RoleTimeouts.AddRoleTimeout | Bot.EventLoop.cs:98-104 | the new record goes at the end, earlier records are unchanged, and the rewritten file loads back as the new list |
| RoleTimeouts.AddNeverDeduplicates | RoleTimeout.cs:5-17 | adding a record equal to one already present leaves both |
| RoleTimeouts.Unexpired | Bot.EventLoop.cs:110-113 | the kept records are exactly the records not yet due |
| RoleTimeouts.ExpiredOf | Bot.EventLoop.cs:112-115 | the dropped records are exactly those whose expiration is before now |
| RoleTimeouts.PartitionCounts | Bot.EventLoop.cs:108-137 | kept and dropped records together are the original list, counting duplicates |
| RoleTimeouts.Revocations | Bot.EventLoop.cs:117-132 | a revoke is issued for every due record whose user and role both resolve, never more calls than due records |
| RoleTimeouts.RevokeSource | Bot.EventLoop.cs:110-132 | each revoke call has a position in the due list whose record is accepted and names the call's user and role |
| RoleTimeouts.RevokesComeFromDue | Bot.EventLoop.cs:117-132 | every revoke issued is for a due record whose user and role resolve |
| RoleTimeouts.RevocationsOfOne | Bot.EventLoop.cs:117-132 | a single record gives one revoke when it resolves and none otherwise |
| RoleTimeouts.RevocationsAppend | Bot.EventLoop.cs:110-132 | the calls follow the list: the revokes for two runs of records are the first run's revokes, then the second's |
| RoleTimeouts.Sweep | Bot.EventLoop.cs:106-140 | drops exactly the due records, keeps the rest, writes the file iff something was dropped and writes a file that loads as the kept list, otherwise changes nothing; the revokes are exactly those for the dropped records |
| RoleTimeouts.CallsUntilFailure | Bot.EventLoop.cs:110-133 | the calls made are the planned ones up to and including the first rejected one, or all of them when none is rejected |
| RoleTimeouts.SweepWithFailures | Bot.EventLoop.cs:106-139 | a pass ends its thread iff a planned revoke is rejected; then the calls before the first rejection are made, the list is unchanged and the file is not rewritten; otherwise the pass is the plain sweep |
| RoleTimeouts.NoFailureIsSweep | Bot.EventLoop.cs:106-139 | when no call is rejected the pass is the plain sweep and the thread goes on |
| RoleTimeouts.AbortedPassKeepsDueRecords | Bot.EventLoop.cs:132-139 | an aborted pass drops nothing: the due records are still in the list and still due |
| RoleTimeouts.SweepRewritesIffSomethingDue | Bot.EventLoop.cs:135-139 | the file is rewritten iff some record has expired |
| RoleTimeouts.NothingDueKeepsAll | Bot.EventLoop.cs:110-113 | with nothing due the list is kept whole, in order |
| RoleTimeouts.UnexpiredAppend | Bot.EventLoop.cs:110-113 | filtering kept records distributes over concatenation |
| RoleTimeouts.ExpiredAppend | Bot.EventLoop.cs:110-115 | filtering due records distributes over concatenation |
| RoleTimeouts.SweepKeepsOrder | Bot.EventLoop.cs:137 | kept and dropped records keep their relative order |
| RoleTimeouts.SweepStoreIgnoresGuild | Bot.EventLoop.cs:117-129 | a failed user or role lookup only skips the revoke; the list and file do not depend on the guild |
| RoleTimeouts.SweepIdempotent | Bot.EventLoop.cs:135-139 | a second sweep at the same now drops nothing and writes nothing |
| RoleTimeouts.NothingDueGivesNone | Bot.EventLoop.cs:135 | with nothing due, nothing is selected for removal |
| RoleTimeouts.AddThenSweep | Bot.EventLoop.cs:98-139 | a record added and then due is the only one dropped, gets exactly one revoke, and the file goes back to the earlier list |
| Roles.FindUserByDisplayNameOrUsername | Bot.Roles.cs:20-34 | the first nickname match wins if any exists, otherwise the first username match; none iff neither matches anyone |
| Roles.NicknamePassComesFirst | Bot.Roles.cs:25-31 | a later nickname match beats an earlier username-only match |
| Roles.RoleUpdates | Bot.Roles.cs:36-64 | nothing is reported when the role counts are equal; lost roles are held before but not after, gained roles the reverse, join roles never reported |
| Roles.RoleUpdatesExplainChange | Bot.Roles.cs:41-63 | when the counts differ, replaying the report on the old roles gives the new ones outside the join roles |
| Roles.SwapGoesUnreported | Bot.Roles.cs:38-39 | exchanging one audited role for another changes the roles yet reports nothing |
| Roles.UnitSpellings | Bot.Roles.cs:117-138 | unit words are matched after upper-casing, so `Mins`, `minute`, `hR`, `HOURS`, `day` and `Days` are accepted, while `m`, `week` and `h` are rejected |
| Roles.ParseUnit | Bot.Roles.cs:117-138 | after upper-casing, MIN, MINS, MINUTE and MINUTES mean minutes, HR, HRS, HOUR and HOURS hours, DAY and DAYS days, and nothing else is a unit |
| Roles.DelayMillis | Bot.Roles.cs:116-134 | the intended delay: 60000, 3600000 or 86400000 ms per unit, at least a minute for a positive amount |
| Roles.DelayMillisAsWritten | Bot.Roles.cs:123-133 | the delay the code computes is a 32-bit int equal to the intended delay modulo 2^32 |
| Roles.AsWrittenDelayFitsIff | Bot.Roles.cs:116-133 | the 32-bit delay equals the intended one iff the amount is at most 35791 minutes, 596 hours or 24 days |
| Roles.TwentyFiveDaysWrapsNegative | Bot.Roles.cs:131-133 | 25 days is 2160000000 ms but the code computes -2134967296 |
| Roles.ParseAmount | Bot.Roles.cs:110 | an accepted amount is a positive 32-bit int that the token spells, and every token spelling such an int is accepted with that value |
| Roles.GiveTemporaryRole | Bot.Roles.cs:82-141 | the checks run in order (argument count, user, the `shush` allow-list, role, amount, unit) and the first failure wins; the unknown-role reply names the lower-cased role token; a grant names the found user, the `shush` role and the requested delay |
| Roles.OnlyShushIsGranted | Bot.Roles.cs:96-108 | only a guild role named `shush` in some letter case is ever granted |
| Roles.GrantDelayAsWritten | Bot.Roles.cs:116-144 | the delay the code schedules differs from the granted one iff the amount exceeds its unit's 32-bit limit |
| Commands.CanHighlightIffNoWait | Bot.Commands.cs:69-76 | a highlight is allowed iff the reported wait `HighlightTime + 15 min - now` is not positive |
| Commands.TimeUntilHighlight | Bot.Commands.cs:69-76 | the reported wait is not positive iff a highlight is allowed |
| Commands.MinutesPart | Bot.Commands.cs:160 | the `Minutes` component lies strictly between -60 and 60 and, for a wait under an hour, is its whole minutes |
| Commands.SecondsPart | Bot.Commands.cs:160 | the `Seconds` component lies strictly between -60 and 60 and, for a wait under a minute, is its whole seconds |
| Commands.FirstHighlightAllowed | Bot.Commands.cs:65 | from the initial `DateTime.MinValue` the first highlight is allowed |
| Commands.WaitSplit | Bot.Commands.cs:160 | a wait within the window splits into at most 15 minutes and 0-59 seconds that round it down to the second |
| Commands.HandleHighlight | Bot.Commands.cs:128-170 | checks run in order (channel, token count, role found, role highlightable, cooldown), each rejection iff its condition and the earlier ones passed; the missing-role reply names the role token; only a highlight sets `HighlightTime` to now; the body is tokens 2.. joined by spaces |
| Commands.HighlightTimeMonotonic | Bot.Commands.cs:158-167 | `HighlightTime` never decreases |
| Commands.CooldownReplyWithinWindow | Bot.Commands.cs:158-161 | the cooldown reply's minutes and seconds describe the remaining wait |
| Commands.CooldownWindow | Bot.Commands.cs:158-167 | after a highlight a second one is refused within 15 minutes, whoever asks, and allowed from then on |
| Commands.HighlightBodyKeepsWords | Bot.Commands.cs:164 | the highlight body re-splits into exactly the words after the role name |
| Commands.HandleAddOrRemoveRole | Bot.Commands.cs:88-126 | checks run in order (token count, role found, join role, caller in guild), each failure iff its condition; the missing-role reply names the role token; a change adds or removes exactly the named join role for the caller |
| Commands.RoleRequestTouchesOnlyJoinRoles | Bot.Commands.cs:108-124 | a request never changes a role outside the join roles |
| Commands.AddThenRemove | Bot.Commands.cs:78-86 | adding then removing a role with the same arguments leaves the caller without it; removing then adding leaves the caller with it |
| Commands.HelpSections | Bot.Commands.cs:172-196 | the base section always comes first; the staff section appears iff staff or manager, the administrator section iff manager |
| Commands.HelpFollowsTier | Bot.Commands.cs:181-193 | each tier sees exactly its own and the lower tiers' sections, in order |
| Dispatch.UnknownCommandPatternExamples | Bot.cs:21 | the unknown-command pattern needs four characters, so `.hi` never matches while `.foo` and `help` do |
| Dispatch.HandleUnexpectedCommand | Bot.cs:183-189 | "Unknown command" is replied iff the channel is the highlight channel and the token matches the pattern |
| Dispatch.HandleChatMessage | Bot.cs:163-181 | ignored iff there are no tokens or the first does not start with `.`; highlight iff the rest of the first token upper-cases to HIGHLIGHT; any other command gets the unknown-command handling of its first token; only a highlight can change `HighlightTime` |
| Dispatch.OtherChannelsOnlyAnswerHighlights | Bot.cs:172-188 | outside the highlight channel the only reply a channel message can get is the wrong-channel reply to a highlight |
| Dispatch.HandleDirectMessage | Bot.cs:191-225 | an unavailable guild gets the error reply; otherwise the upper-cased command word decides: ADDROLE and REMOVEROLE are add and remove requests, HELP the help reply, CRASH acts iff the caller is a manager, GIVEROLE iff staff or manager, any other word is ignored |
| Dispatch.DirectMessageRoutes | Bot.cs:202-223 | a direct message of one command character, a command word and argument words is routed by the upper-cased word, whatever the character |
| Dispatch.MemberCannotGrantOrCrash | Bot.cs:209-217 | a member-tier caller can neither grant a role nor stop the bot |
| Dispatch.DirectPrefixUnchecked | Bot.cs:204 | in a direct message `xhelp` is a help request: the first character is not checked |
| Dispatch.MessageReceived | Bot.cs:227-243 | the bot's own messages are ignored; another author's direct message gets exactly `HandleDirectMessage`'s outcome, and a text-channel message gets exactly `HandleChatMessage`'s outcome and `HighlightTime`; other channel kinds are ignored; only a highlight moves `HighlightTime`, to now |
| QuotedSplit.CloseFrom | Util.cs:21 | the lazy quoted match closes at the first quote, and only if no line feed comes before it |
| QuotedSplit.QuotedEnd | Util.cs:21 | a quoted group needs at least one character between its quotes and ends at the first closing quote after that |
| QuotedSplit.RunEnd | Util.cs:21 | the non-space alternative takes the longest run without spaces |
| QuotedSplit.Matches | Util.cs:21 | matches lie inside the input, are non-empty and go left to right without overlapping; a match at a quote that can close is the whole quoted group |
| QuotedSplit.QuotedGroupBundlesSpaces | Util.cs:21 | `"a b"` is one match spanning both quotes and the space between |
| QuotedSplit.StripQuotes | Util.cs:21 | removing quotes leaves every other character and leaves quote-free text unchanged |
| QuotedSplit.Texts | Util.cs:21 | one token per match: the match's text without quotes |
| QuotedSplit.SplitQuoted | Util.cs:21 | one token per match, none containing a quote |
| QuotedSplit.MatchShapes | Util.cs:21 | every match is a quoted group or a maximal run without spaces |
| QuotedSplit.MatchesCover | Util.cs:21 | every character that is not a space lies inside some match |
| QuotedSplit.BlankHasNoMatches | Util.cs:21 | a text of spaces only has no match |
| QuotedSplit.SplitQuotedShape | Util.cs:21 | tokens come in source order; the result is empty iff the input is empty or all spaces |
| QuotedSplit.UnquotedTokensHaveNoSpace | Util.cs:21 | a token not produced by a quoted group contains no space |
| QuotedSplit.UnquotedSplitIsWords | Util.cs:21 | without quotes in the input, the result is the plain space split with empty pieces dropped |
| QuotedSplit.StripQuotesAppend | Util.cs:21 | quote removal works piece by piece |
| QuotedSplit.DocumentedExample | Util.cs:14 | `hi there "mr person" :)` gives `hi`, `there`, `mr person`, `:)` |
| QuotedSplit.EmptyQuotesLeaveEmptyToken | Util.cs:21 | `""` is not a quoted group and becomes an empty token |
| LegacyBot.GetTokens | index.js:155-157 | the tokens are the words after the first character, all non-empty and space-free |
| LegacyBot.GetTokensExample | index.js:148-157 | `.command  hello   hi ` gives `command`, `hello`, `hi` for any three words in those places |
| LegacyBot.TokensAgreeWithChatTokens | index.js:155-157 | the JavaScript tokens equal the C# tokens with the command character taken off the first |
| LegacyBot.GetTimeUntilHighlight | index.js:67-78 | allowed iff the delta is not positive; minutes are the floor of the delta in minutes; seconds carry the delta's sign |
| LegacyBot.CooldownReplySplitsWait | index.js:68-70 | during the cooldown the minutes and 0-59 seconds round the wait down to the second |
| LegacyBot.CooldownReplyWithinJsWindow | index.js:99-104 | the cooldown reply's minutes and 0-59 seconds describe the remaining wait, rounded down to the second |
| LegacyBot.GateMatchesCSharp | index.js:71 | with a 15-minute timeout the JavaScript gate allows exactly what the C# gate allows at the same instants |
| LegacyBot.FirstJsHighlightAllowed | index.js:7 | the next date starts at start-up, so the first request after start-up passes the cooldown |
| LegacyBot.FindHighlightableRole | index.js:50-59 | a role is returned iff the name matches one case-insensitively and its id is on the highlight list |
| LegacyBot.RequestHighlightAsWritten | index.js:92-98 | with fewer than three tokens the handler throws; no usage reply is ever sent |
| LegacyBot.ShortRequestThrows | index.js:93-98 | a bare `.highlight` has one token and throws |
| LegacyBot.RequestHighlight | index.js:92-141 | usage iff fewer than three tokens; then cooldown, channel and role in that order; the cooldown reply carries `getTimeUntilHighlight`'s minutes and seconds; the next date moves to delivery + timeout only when the post is delivered |
| LegacyBot.CheckOrderDiffers | index.js:99-110 | in the wrong channel during the cooldown, JavaScript reports the cooldown while C# reports the channel |
| LegacyBot.HandleChannelMessage | index.js:171-188 | a highlight is dispatched iff the message is not the bot's, comes from the guild, starts with `.`, and has a first token that upper-cases to HIGHLIGHT |
| LegacyBot.MessageEvent | index.js:195-201 | only text messages are handled; direct messages and bot messages change nothing |
| LegacyBot.NextDateMovesOnlyOnDelivery | index.js:121-122 | the next allowed date changes only for a delivered highlight, to the delivery time plus the timeout |

## Left out

- Threads and timers are not modelled. This covers the event-loop thread with its volatile flag and 10-second sleep, the duplicate start of that thread from `RunAsync` and `ReadyAsync`, the fire-and-forget delayed removal of a granted role, and JavaScript promises and `setTimeout`. Their point is concurrency. Each pass and each handler is modelled as one sequential step.
- Discord calls are outcome values rather than effects. This covers `AddRoleAsync`, `RemoveRoleAsync`, `ModifyAsync`, `SendMessageAsync`, `BanAsync`, login and `Environment.Exit`. Most are not awaited, so their failures go unseen. Failures of the calls that are awaited are left out, except for the sweep's `RemoveRoleAsync` (modelled by `RoleTimeouts.SweepWithFailures`) and the JavaScript highlight post (the `delivered` parameter).
- RoleTimeouts.SweepWithFailures: stops at `threadEnds`. In .NET an exception that escapes a thread also ends the process; the model does not follow it there.
- RoleTimeouts.Sweep: assumes the awaited `GetUserAsync(...).Result` (Bot.EventLoop.cs:117) and the debug-channel post inside `Log` (Bot.EventLoop.cs:131) succeed. A failure of either ends the pass like a failed revoke.
- Commands.HandleHighlight: assumes the awaited `ModifyAsync` and `SendMessageAsync` succeed. A failed `ModifyAsync` at Bot.Commands.cs:166 throws before `HighlightTime` is set. A failed post at Bot.Commands.cs:168 throws after it is set and leaves the role mentionable.
- `IsAdmin` (Bot.Commands.cs:67) is not modelled because nothing calls it. It would compare the user's own id with the admin role ids.
- File I/O is not modelled. The timeout file is its list of lines, and a missing file is `None`.
- Logging to the console and to channels, `LogToChannel`, `FindChannelFromName`, `UserLeftAsync` and the help text wording are left out. They produce no decision.
- `UserJoinedAsync`, `GiveJoinRoles` and `GetJoinRoles` are left out: `GiveJoinRoles` iterates an undefined `JoinRoles` member. Only `IsNewAccount`'s arithmetic is modelled.
- The JavaScript `handleDirectMessage` and `addJoinMemberRoles` are left out because both are empty TODOs. So are the welcome message and the loading of `config.json`, which becomes a `JsConfig` value.
- Platform.IsNewAccount: uses an integer `nowMs`. It leaves out the local-time versus UTC mix of `DateTime.Now` against a UTC creation time.
- RoleTimeouts.Sweep: reads one fixed `now`. The code reads `DateTime.Now` afresh for each record.
- Commands.HandleHighlight: uses the same `now` for the cooldown check and for the new `HighlightTime`. The code reads the clock twice.
- Commands.CanHighlightIffNoWait: compares exact ticks with 15 minutes. The code compares `TotalMinutes`, a double, with 15.0.
- RoleTimeouts.FromBinary: takes the local time zone's offset from UTC as 0 (`LocalOffset`). For a negative (local-kind) value, `DateTime.FromBinary` adds the machine's offset before the first-day wrap and the range check, so on a machine outside UTC the converted time, and whether it converts at all near the ends of the range, differ from the model.
- Text.TryParseInRange: accepts an optional sign and ASCII digits only. .NET `TryParse` also allows surrounding white space and culture-specific signs.
- Platform.FindRoleFromName: matches with ASCII case mapping. The code uses culture-aware `ToLower` (Bot.cs:151-152).
- Roles.FindUserByDisplayNameOrUsername: compares names with ASCII case mapping. The code uses culture-aware `ToLower` (Bot.Roles.cs:22-30).
- Roles.GiveTemporaryRole: maps case in ASCII only, for the role name (`ToLower`, Bot.Roles.cs:96) and the unit (`ToUpper`, Bot.Roles.cs:117).
- Dispatch.HandleChatMessage: upper-cases the command word in ASCII only. The code uses culture-aware `ToUpper` (Bot.cs:172).
- Dispatch.HandleDirectMessage: upper-cases the command word in ASCII only. The code uses culture-aware `ToUpper` (Bot.cs:204).
- LegacyBot.HandleChannelMessage: upper-cases in ASCII only. JavaScript's `toUpperCase` (index.js:181) is full Unicode mapping, which can change a string's length (`ß` becomes `SS`).
- Dispatch.UnknownCommandPatternExamples: models `\w` as ASCII letters, digits and underscore. .NET's `\w` covers all Unicode letters.

## Findings

| source | as written | input that shows it | evidently intended | confidence | as-written member | corrected member |
|---|---|---|---|---|---|---|
| Bot.Roles.cs:123-133 | the delay in milliseconds is an unchecked 32-bit `int` product | `.giveRole someone shush 25 days`: 25 × 86400000 = 2160000000 wraps to -2134967296 | the delay is the requested duration, 2160000000 ms | high, not executed | Roles.DelayMillisAsWritten (shown by Roles.TwentyFiveDaysWrapsNegative and Roles.AsWrittenDelayFitsIff) | Roles.DelayMillis, used by Roles.GiveTemporaryRole |
| index.js:93-98 | the usage branch reads `channel`, a `const` declared a few lines later, so it throws a `ReferenceError` | `.highlight` or `.highlight role` with no message | a short request gets the usage reply | high, not executed | LegacyBot.RequestHighlightAsWritten (shown by LegacyBot.ShortRequestThrows) | LegacyBot.RequestHighlight, used by LegacyBot.HandleChannelMessage |

=== FILE: commands.dfy ===
/** The highlight cooldown, self-service role requests and tiered help
    (Bot.Commands.cs). The shared `HighlightTime` is passed in and the new value
    returned; times are `DateTime` tick counts. */
module Commands {

  import opened Wrappers
  import opened Text
  import opened Numbers
  import opened Platform

  const TicksPerSecond: int := 10_000_000
  const TicksPerMinute: int := 60 * TicksPerSecond

  /** `MinutesBetweenHighlights`, 15 minutes, in ticks. */
  const CooldownTicks: int := 15 * TicksPerMinute

  /** The field's default, `DateTime.MinValue`. */
  const InitialHighlightTime: int := 0

  // ---------------------------------------------------------------------------
  // CanHighlight
  // ---------------------------------------------------------------------------

  /** At least the full cooldown has passed since the last highlight. */
  predicate CanHighlight(highlightTime: int, now: int)
  {
    now - highlightTime >= CooldownTicks
  }

  /** The `timeUntil` out value: when the next highlight becomes possible, relative to `now`. */
  function TimeUntilHighlight(highlightTime: int, now: int): (wait: int)
    ensures wait <= 0 <==> CanHighlight(highlightTime, now)
    ensures wait == CooldownTicks - (now - highlightTime)
  {
    highlightTime + CooldownTicks - now
  }

  /** The gate and the reported wait agree: a highlight is allowed exactly
      when there is nothing left to wait. */
  lemma CanHighlightIffNoWait(highlightTime: int, now: int)
    ensures CanHighlight(highlightTime, now) <==> TimeUntilHighlight(highlightTime, now) <= 0
    ensures !CanHighlight(highlightTime, now) ==> TimeUntilHighlight(highlightTime, now) > 0
  {
  }

  /** From the initial state the first highlight is allowed at any real clock
      reading (anything past 00:15 on 1 January 0001). */
  lemma FirstHighlightAllowed(now: int)
    requires now >= CooldownTicks
    ensures CanHighlight(InitialHighlightTime, now)
  {
  }

  /** `TimeSpan.Minutes`: whole minutes, modulo 60, truncated toward zero. */
  function MinutesPart(ticks: int): (m: int)
    ensures -60 < m < 60
    ensures 0 <= ticks < 60 * TicksPerMinute ==> m * TicksPerMinute <= ticks < (m + 1) * TicksPerMinute
  {
    TruncRem(TruncDiv(ticks, TicksPerMinute), 60)
  }

  /** `TimeSpan.Seconds`: whole seconds, modulo 60, truncated toward zero. */
  function SecondsPart(ticks: int): (sec: int)
    ensures -60 < sec < 60
    ensures 0 <= ticks < TicksPerMinute ==> sec * TicksPerSecond <= ticks < (sec + 1) * TicksPerSecond
  {
    TruncRem(TruncDiv(ticks, TicksPerSecond), 60)
  }

  // ---------------------------------------------------------------------------
  // HandleHighlight
  // ---------------------------------------------------------------------------

  /** Every outcome but `Highlighted` is one reply in the channel and nothing
      else; `Highlighted` makes the role mentionable, posts the mention with
      the sender's name and the body, and makes it unmentionable again. */
  datatype HighlightOutcome =
    | NotHighlightChannel
    | HighlightUsage
    | HighlightRoleMissing(name: string)
    | RoleNotHighlightable
    | OnCooldown(minutes: int, seconds: int)
    | Highlighted(roleId: U64, sender: string, body: string)

  /** `HandleHighlight` on `.highlight <role> <message...>`: returns the
      outcome and the new `HighlightTime`. */
  function HandleHighlight(tokens: seq<string>, sender: string, channelId: U64, roles: seq<Role>,
                           highlightTime: int, now: int): (r: (HighlightOutcome, int))
    ensures r.0.Highlighted? ==> r.1 == now
    ensures !r.0.Highlighted? ==> r.1 == highlightTime
    ensures r.0 == NotHighlightChannel <==> channelId != HighlightChannelId
    ensures r.0 == HighlightUsage <==> channelId == HighlightChannelId && |tokens| < 3
    ensures r.0.HighlightRoleMissing? <==>
      channelId == HighlightChannelId && |tokens| >= 3 && FindRoleFromName(roles, tokens[1]).None?
    ensures r.0.HighlightRoleMissing? ==> r.0.name == tokens[1]
    ensures r.0 == RoleNotHighlightable <==>
      channelId == HighlightChannelId && |tokens| >= 3 && FindRoleFromName(roles, tokens[1]).Some?
      && FindRoleFromName(roles, tokens[1]).value.id !in JoinRoleIds
    ensures r.0.OnCooldown? <==>
      channelId == HighlightChannelId && |tokens| >= 3 && FindRoleFromName(roles, tokens[1]).Some?
      && FindRoleFromName(roles, tokens[1]).value.id in JoinRoleIds && !CanHighlight(highlightTime, now)
    ensures r.0.OnCooldown? ==>
      r.0.minutes == MinutesPart(TimeUntilHighlight(highlightTime, now))
      && r.0.seconds == SecondsPart(TimeUntilHighlight(highlightTime, now))
    ensures r.0.Highlighted? ==>
      |tokens| >= 3 && r.0.roleId in JoinRoleIds
      && FindRoleFromName(roles, tokens[1]).Some? && FindRoleFromName(roles, tokens[1]).value.id == r.0.roleId
      && r.0.sender == sender && r.0.body == JoinWith(tokens[2..], ' ')
  {
    if channelId != HighlightChannelId then (NotHighlightChannel, highlightTime)
    else if |tokens| < 3 then (HighlightUsage, highlightTime)
    else match FindRoleFromName(roles, tokens[1])
      case None => (HighlightRoleMissing(tokens[1]), highlightTime)
      case Some(role) =>
        if role.id !in JoinRoleIds then (RoleNotHighlightable, highlightTime)
        else if !CanHighlight(highlightTime, now) then
          var wait := TimeUntilHighlight(highlightTime, now);
          (OnCooldown(MinutesPart(wait), SecondsPart(wait)), highlightTime)
        else (Highlighted(role.id, sender, JoinWith(tokens[2..], ' ')), now)
  }

  /** With a clock that does not run backwards, `HighlightTime` never decreases. */
  lemma HighlightTimeMonotonic(tokens: seq<string>, sender: string, channelId: U64, roles: seq<Role>,
                               highlightTime: int, now: int)
    requires highlightTime <= now
    ensures HandleHighlight(tokens, sender, channelId, roles, highlightTime, now).1 >= highlightTime
  {
  }

  /** A wait inside the cooldown window splits into whole minutes (at most 15)
      and seconds that together round it down to the second. */
  lemma WaitSplit(wait: int)
    requires 0 < wait <= CooldownTicks
    ensures 0 <= MinutesPart(wait) <= 15 && 0 <= SecondsPart(wait) < 60
    ensures MinutesPart(wait) * TicksPerMinute + SecondsPart(wait) * TicksPerSecond <= wait
    ensures wait < MinutesPart(wait) * TicksPerMinute + (SecondsPart(wait) + 1) * TicksPerSecond
  {
    var secs := wait / TicksPerSecond;
    assert secs * TicksPerSecond <= wait < (secs + 1) * TicksPerSecond;
    assert secs <= 900;
    var mins := wait / TicksPerMinute;
    assert mins == secs / 60;
    assert mins <= 15;
    assert MinutesPart(wait) == mins;
    assert SecondsPart(wait) == secs % 60;
    assert mins * TicksPerMinute + (secs % 60) * TicksPerSecond == secs * TicksPerSecond;
  }

  /** The cooldown reply names the remaining wait, split into whole
      minutes (at most 15) and seconds that together round it down to the second. */
  lemma CooldownReplyWithinWindow(tokens: seq<string>, sender: string, channelId: U64, roles: seq<Role>,
                                  highlightTime: int, now: int)
    requires highlightTime <= now
    requires HandleHighlight(tokens, sender, channelId, roles, highlightTime, now).0.OnCooldown?
    ensures var o := HandleHighlight(tokens, sender, channelId, roles, highlightTime, now).0;
      var wait := TimeUntilHighlight(highlightTime, now);
      0 <= o.minutes <= 15 && 0 <= o.seconds < 60
      && o.minutes * TicksPerMinute + o.seconds * TicksPerSecond <= wait
      && wait < o.minutes * TicksPerMinute + (o.seconds + 1) * TicksPerSecond
  {
    WaitSplit(TimeUntilHighlight(highlightTime, now));
  }

  /** Two highlights at least a cooldown apart both go through; a second
      request inside the window is refused with a positive wait, whoever sends it. */
  lemma CooldownWindow(tokens: seq<string>, sender: string, sender2: string, roles: seq<Role>,
                       highlightTime: int, t0: int, t1: int)
    requires HandleHighlight(tokens, sender, HighlightChannelId, roles, highlightTime, t0).0.Highlighted?
    requires t0 <= t1
    ensures var state := HandleHighlight(tokens, sender, HighlightChannelId, roles, highlightTime, t0).1;
      var second := HandleHighlight(tokens, sender2, HighlightChannelId, roles, state, t1);
      (t1 < t0 + CooldownTicks ==> second.0.OnCooldown? && second.1 == t0
                                   && TimeUntilHighlight(state, t1) > 0)
      && (t1 >= t0 + CooldownTicks ==> second.0.Highlighted? && second.1 == t1)
  {
  }

  /** The highlight body re-splits into exactly the words after the role name. */
  lemma HighlightBodyKeepsWords(tokens: seq<string>, sender: string, channelId: U64, roles: seq<Role>,
                                highlightTime: int, now: int)
    requires forall k :: 0 <= k < |tokens| ==> tokens[k] != "" && ' ' !in tokens[k]
    requires HandleHighlight(tokens, sender, channelId, roles, highlightTime, now).0.Highlighted?
    ensures Words(HandleHighlight(tokens, sender, channelId, roles, highlightTime, now).0.body) == tokens[2..]
  {
    WordsOfJoin(tokens[2..]);
  }

  // ---------------------------------------------------------------------------
  // HandleAddOrRemoveRole
  // ---------------------------------------------------------------------------

  /** Every outcome is one reply to the caller; `RoleChanged` is preceded by
      exactly one `AddRoleAsync` (when `add`) or `RemoveRoleAsync`. */
  datatype RoleRequestOutcome =
    | RoleUsage
    | RoleMissing(name: string)
    | RoleNotSelfService
    | NotAGuildMember
    | RoleChanged(add: bool, userId: U64, roleId: U64)

  /** `HandleAddOrRemoveRole` on `.addRole <role>` / `.removeRole <role>`. */
  function HandleAddOrRemoveRole(tokens: seq<string>, authorId: U64, guild: Guild, add: bool): (r: RoleRequestOutcome)
    ensures r == RoleUsage <==> |tokens| < 2
    ensures r.RoleMissing? <==> |tokens| >= 2 && FindRoleFromName(guild.roles, tokens[1]).None?
    ensures r.RoleMissing? ==> r.name == tokens[1]
    ensures r == RoleNotSelfService <==>
      |tokens| >= 2 && FindRoleFromName(guild.roles, tokens[1]).Some?
      && FindRoleFromName(guild.roles, tokens[1]).value.id !in JoinRoleIds
    ensures r == NotAGuildMember <==>
      |tokens| >= 2 && FindRoleFromName(guild.roles, tokens[1]).Some?
      && FindRoleFromName(guild.roles, tokens[1]).value.id in JoinRoleIds
      && GetUser(guild, authorId).None?
    ensures r.RoleChanged? ==>
      r.add == add && r.userId == authorId && GetUser(guild, authorId).Some?
      && r.roleId in JoinRoleIds && r.roleId == FindRoleFromName(guild.roles, tokens[1]).value.id
  {
    if |tokens| < 2 then RoleUsage
    else match FindRoleFromName(guild.roles, tokens[1])
      case None => RoleMissing(tokens[1])
      case Some(role) =>
        if role.id !in JoinRoleIds then RoleNotSelfService
        else match GetUser(guild, authorId)
          case None => NotAGuildMember
          case Some(user) => RoleChanged(add, user.id, role.id)
  }

  /** The member's roles after the platform applies the outcome. */
  function ApplyRoleRequest(held: set<U64>, o: RoleRequestOutcome): set<U64>
  {
    if o.RoleChanged? then (if o.add then held + {o.roleId} else held - {o.roleId}) else held
  }

  /** Self-service requests only ever move join roles: every other role the
      caller holds is the same afterwards. */
  lemma RoleRequestTouchesOnlyJoinRoles(tokens: seq<string>, authorId: U64, guild: Guild, add: bool, held: set<U64>)
    ensures var o := HandleAddOrRemoveRole(tokens, authorId, guild, add);
      ApplyRoleRequest(held, o) - JoinRoleIds == held - JoinRoleIds
  {
  }

  /** Adding a role and then removing it with the same arguments leaves the
      caller without it, and removing then adding leaves the caller with it. */
  lemma AddThenRemove(tokens: seq<string>, authorId: U64, guild: Guild, held: set<U64>)
    requires HandleAddOrRemoveRole(tokens, authorId, guild, true).RoleChanged?
    ensures var added := ApplyRoleRequest(held, HandleAddOrRemoveRole(tokens, authorId, guild, true));
      var removed := ApplyRoleRequest(added, HandleAddOrRemoveRole(tokens, authorId, guild, false));
      removed == held - {HandleAddOrRemoveRole(tokens, authorId, guild, true).roleId}
    ensures var removed := ApplyRoleRequest(held, HandleAddOrRemoveRole(tokens, authorId, guild, false));
      var added := ApplyRoleRequest(removed, HandleAddOrRemoveRole(tokens, authorId, guild, true));
      added == held + {HandleAddOrRemoveRole(tokens, authorId, guild, true).roleId}
  {
  }

  // ---------------------------------------------------------------------------
  // HandleHelpRequest
  // ---------------------------------------------------------------------------

  /** The sections of the help reply; their exact wording is not modelled. */
  datatype HelpSection = BaseCommands | StaffCommands | AdministratorCommands

  /** `HandleHelpRequest`: the base section, then the staff section for staff
      or managers, then the administrator section for managers. */
  function HelpSections(guild: Guild, userId: U64): (r: seq<HelpSection>)
    ensures |r| >= 1 && r[0] == BaseCommands
    ensures StaffCommands in r <==> IsStaffOrManager(guild, userId)
    ensures AdministratorCommands in r <==> IsManager(guild, userId)
  {
    [BaseCommands]
    + (if IsStaffOrManager(guild, userId) then [StaffCommands] else [])
    + (if IsManager(guild, userId) then [AdministratorCommands] else [])
  }

  /** The help reply follows the caller's tier: each tier sees its own
      sections and every lower tier's, in tier order, and nothing more. */
  lemma HelpFollowsTier(guild: Guild, userId: U64)
    ensures TierOf(guild, userId) == MemberTier ==> HelpSections(guild, userId) == [BaseCommands]
    ensures TierOf(guild, userId) == StaffTier ==> HelpSections(guild, userId) == [BaseCommands, StaffCommands]
    ensures TierOf(guild, userId) == ManagerTier ==>
      HelpSections(guild, userId) == [BaseCommands, StaffCommands, AdministratorCommands]
  {
  }
}

=== FILE: dispatch.dfy ===
/** Inbound message handling (Bot.cs): tokenising, the self filter, and the
    dispatch of channel and direct messages to the command handlers. Each
    handler's effect is its outcome value; the only state a message can change
    is the shared `HighlightTime`, passed in and returned. */
module Dispatch {

  import opened Text
  import opened Platform
  import opened Roles
  import opened Commands

  datatype Channel = DirectChannel | TextChannel(id: U64) | OtherChannel

  datatype Message = Message(authorId: U64, authorName: string, content: string, channel: Channel)

  /** The command word: the first token without its first character, upper-cased. */
  function CommandName(token: string): string
    requires |token| >= 1
  {
    Upper(token[1..])
  }

  // ---------------------------------------------------------------------------
  // UnknownCommandRegex: the command character, two word characters, then at
  // least one more character, anywhere in the token
  // ---------------------------------------------------------------------------

  /** `\w`, restricted to ASCII. */
  predicate IsWordChar(c: char)
  {
    'a' <= c <= 'z' || 'A' <= c <= 'Z' || '0' <= c <= '9' || c == '_'
  }

  /** The pattern matched at position `i`. Its leading `.` is unescaped, so it
      stands for any character but a line feed, like the trailing `.+`. */
  predicate MatchesAt(token: string, i: nat)
  {
    i + 4 <= |token| && token[i] != '\n' && IsWordChar(token[i + 1]) && IsWordChar(token[i + 2])
    && token[i + 3] != '\n'
  }

  /** `UnknownCommandRegex.IsMatch(token)`: the pattern is not anchored. */
  predicate UnknownCommandPattern(token: string)
  {
    exists i :: 0 <= i < |token| && MatchesAt(token, i)
  }

  /** Tokens shorter than four characters never match; any four-character
      token of a dot and word characters does, and so does one without a dot. */
  lemma UnknownCommandPatternExamples()
    ensures !UnknownCommandPattern(".hi")
    ensures UnknownCommandPattern(".foo")
    ensures UnknownCommandPattern("help")
    ensures forall t: string :: |t| < 4 ==> !UnknownCommandPattern(t)
  {
    assert MatchesAt(".foo", 0);
    assert MatchesAt("help", 0);
  }

  // ---------------------------------------------------------------------------
  // Channel messages
  // ---------------------------------------------------------------------------

  datatype ChatOutcome =
    | ChatIgnored
    | HighlightRequest(outcome: HighlightOutcome)
    | UnknownCommandReply(token: string)
    | NoReply

  /** `HandleUnexpectedCommand`: an "Unknown command" reply, only in the
      highlight channel and only for tokens the pattern matches. */
  function HandleUnexpectedCommand(token: string, channelId: U64): (r: ChatOutcome)
    ensures r.UnknownCommandReply? <==> channelId == HighlightChannelId && UnknownCommandPattern(token)
    ensures r.UnknownCommandReply? ==> r.token == token
    ensures !r.UnknownCommandReply? ==> r == NoReply
  {
    if channelId != HighlightChannelId || !UnknownCommandPattern(token) then NoReply
    else UnknownCommandReply(token)
  }

  /** `HandleChatMessage`: split on spaces dropping empty pieces; ignore the
      message unless the first token starts with the command character;
      `HIGHLIGHT` in any letter case goes to the highlight handler, any other
      command to the unknown-command path. */
  function HandleChatMessage(content: string, sender: string, channelId: U64, guild: Guild,
                             highlightTime: int, now: int): (r: (ChatOutcome, int))
    ensures r.0 == ChatIgnored <==>
      Words(content) == [] || Words(content)[0][0] != CommandCharacter
    ensures r.0.HighlightRequest? <==>
      Words(content) != [] && Words(content)[0][0] == CommandCharacter
      && CommandName(Words(content)[0]) == "HIGHLIGHT"
    ensures r.0.HighlightRequest? ==>
      (r.0.outcome, r.1) == HandleHighlight(Words(content), sender, channelId, guild.roles, highlightTime, now)
    ensures !r.0.HighlightRequest? ==> r.1 == highlightTime
    ensures r.0.UnknownCommandReply? ==>
      channelId == HighlightChannelId && r.0.token == Words(content)[0] && UnknownCommandPattern(r.0.token)
    ensures r.0 != ChatIgnored && !r.0.HighlightRequest? ==>
      r.0 == HandleUnexpectedCommand(Words(content)[0], channelId)
  {
    var tokens := Words(content);
    if |tokens| == 0 || tokens[0][0] != CommandCharacter then (ChatIgnored, highlightTime)
    else if CommandName(tokens[0]) == "HIGHLIGHT" then
      var h := HandleHighlight(tokens, sender, channelId, guild.roles, highlightTime, now);
      (HighlightRequest(h.0), h.1)
    else (HandleUnexpectedCommand(tokens[0], channelId), highlightTime)
  }

  /** Outside the highlight channel only a highlight request gets an answer. */
  lemma OtherChannelsOnlyAnswerHighlights(content: string, sender: string, channelId: U64, guild: Guild,
                                          highlightTime: int, now: int)
    requires channelId != HighlightChannelId
    ensures var r := HandleChatMessage(content, sender, channelId, guild, highlightTime, now).0;
      r == ChatIgnored || r == NoReply || r == HighlightRequest(NotHighlightChannel)
  {
  }

  // ---------------------------------------------------------------------------
  // Direct messages
  // ---------------------------------------------------------------------------

  datatype DirectOutcome =
    | GuildUnavailableReply
    | DirectIgnored
    | RoleRequest(request: RoleRequestOutcome)
    | Crash
    | GrantRequest(grant: GrantOutcome)
    | HelpReply(sections: seq<HelpSection>)

  /** The direct-message commands, matched after upper-casing. */
  const DirectCommands: set<string> := {"ADDROLE", "CRASH", "GIVEROLE", "HELP", "REMOVEROLE"}

  /** `HandleDirectMessage`. The first character of the first token is dropped
      without being checked. `CRASH` is logged for every caller but stops the
      bot only for a manager; `GIVEROLE` from a member is ignored. */
  function HandleDirectMessage(content: string, authorId: U64, guild: Guild): (r: DirectOutcome)
    ensures r == GuildUnavailableReply <==> !guild.available
    ensures r == Crash ==> IsManager(guild, authorId)
    ensures r.GrantRequest? ==>
      IsStaffOrManager(guild, authorId) && r.grant == GiveTemporaryRole(Words(content), guild)
    ensures r.HelpReply? ==> r.sections == HelpSections(guild, authorId)
    ensures guild.available && Words(content) == [] ==> r == DirectIgnored
    ensures guild.available && Words(content) != [] ==>
      var tokens := Words(content);
      var command := CommandName(tokens[0]);
      (command == "ADDROLE" ==> r == RoleRequest(HandleAddOrRemoveRole(tokens, authorId, guild, true)))
      && (command == "REMOVEROLE" ==> r == RoleRequest(HandleAddOrRemoveRole(tokens, authorId, guild, false)))
      && (command == "HELP" <==> r.HelpReply?)
      && (r == Crash <==> command == "CRASH" && IsManager(guild, authorId))
      && (r.GrantRequest? <==> command == "GIVEROLE" && IsStaffOrManager(guild, authorId))
      && (r.RoleRequest? <==> command == "ADDROLE" || command == "REMOVEROLE")
      && (command !in DirectCommands ==> r == DirectIgnored)
  {
    if !guild.available then GuildUnavailableReply
    else
      var tokens := Words(content);
      if |tokens| == 0 then DirectIgnored
      else
        var command := CommandName(tokens[0]);
        if command == "ADDROLE" then RoleRequest(HandleAddOrRemoveRole(tokens, authorId, guild, true))
        else if command == "CRASH" then (if IsManager(guild, authorId) then Crash else DirectIgnored)
        else if command == "GIVEROLE" then
          (if IsStaffOrManager(guild, authorId) then GrantRequest(GiveTemporaryRole(tokens, guild)) else DirectIgnored)
        else if command == "HELP" then HelpReply(HelpSections(guild, authorId))
        else if command == "REMOVEROLE" then RoleRequest(HandleAddOrRemoveRole(tokens, authorId, guild, false))
        else DirectIgnored
  }

  /** A member-tier caller can neither grant a temporary role nor stop the bot,
      whatever the message says. */
  lemma MemberCannotGrantOrCrash(content: string, authorId: U64, guild: Guild)
    requires TierOf(guild, authorId) == MemberTier
    ensures var r := HandleDirectMessage(content, authorId, guild);
      !r.GrantRequest? && r != Crash
  {
  }

  /** Any first character stands in for the command character in a direct
      message: `xhelp` is a help request. */
  lemma DirectPrefixUnchecked(authorId: U64, guild: Guild)
    requires guild.available
    ensures HandleDirectMessage("xhelp", authorId, guild) == HelpReply(HelpSections(guild, authorId))
  {
    assert ' ' !in "xhelp";
    WordsOfJoin(["xhelp"]);
    assert JoinWith(["xhelp"], ' ') == "xhelp";
    assert Words("xhelp") == ["xhelp"];
    assert "xhelp"[1..] == "help";
    assert Upper("help") == "HELP";
  }

  /** A direct message `<any character><command> <arguments...>` reaches the
      handler its command word names, whatever the letter case. */
  lemma DirectMessageRoutes(prefix: char, command: string, args: seq<string>, authorId: U64, guild: Guild)
    requires guild.available && prefix != ' ' && ' ' !in command
    requires forall k :: 0 <= k < |args| ==> IsWord(args[k])
    ensures var tokens := [[prefix] + command] + args;
      var r := HandleDirectMessage(JoinWith(tokens, ' '), authorId, guild);
      (Upper(command) == "ADDROLE" ==> r == RoleRequest(HandleAddOrRemoveRole(tokens, authorId, guild, true)))
      && (Upper(command) == "REMOVEROLE" ==> r == RoleRequest(HandleAddOrRemoveRole(tokens, authorId, guild, false)))
      && (Upper(command) == "HELP" ==> r == HelpReply(HelpSections(guild, authorId)))
      && (Upper(command) == "GIVEROLE" && IsStaffOrManager(guild, authorId) ==>
            r == GrantRequest(GiveTemporaryRole(tokens, guild)))
      && (Upper(command) == "CRASH" && IsManager(guild, authorId) ==> r == Crash)
  {
    var tokens := [[prefix] + command] + args;
    assert forall k :: 0 <= k < |tokens| ==> tokens[k] != "" && ' ' !in tokens[k] by {
      forall k | 0 <= k < |tokens|
        ensures tokens[k] != "" && ' ' !in tokens[k]
      {
        if k > 0 {
          assert tokens[k] == args[k - 1];
        }
      }
    }
    WordsOfJoin(tokens);
    assert tokens[0][1..] == command;
  }

  // ---------------------------------------------------------------------------
  // MessageReceivedAsync
  // ---------------------------------------------------------------------------

  datatype Reaction = Ignored | Chat(chat: ChatOutcome) | Direct(direct: DirectOutcome)

  /** `MessageReceivedAsync`: the bot's own messages are dropped, direct and
      text channels go to their handlers, other channel kinds are ignored. */
  function MessageReceived(msg: Message, selfId: U64, guild: Guild, highlightTime: int, now: int): (r: (Reaction, int))
    ensures msg.authorId == selfId ==> r == (Ignored, highlightTime)
    ensures r.0.Direct? <==> msg.authorId != selfId && msg.channel == DirectChannel
    ensures r.0.Chat? <==> msg.authorId != selfId && msg.channel.TextChannel?
    ensures msg.authorId != selfId && msg.channel == DirectChannel ==>
      r == (Direct(HandleDirectMessage(msg.content, msg.authorId, guild)), highlightTime)
    ensures msg.authorId != selfId && msg.channel.TextChannel? ==>
      var c := HandleChatMessage(msg.content, msg.authorName, msg.channel.id, guild, highlightTime, now);
      r == (Chat(c.0), c.1)
    ensures !(r.0.Chat? && r.0.chat.HighlightRequest? && r.0.chat.outcome.Highlighted?) ==> r.1 == highlightTime
    ensures r.0.Chat? && r.0.chat.HighlightRequest? && r.0.chat.outcome.Highlighted? ==> r.1 == now
  {
    if msg.authorId == selfId then (Ignored, highlightTime)
    else match msg.channel
      case DirectChannel => (Direct(HandleDirectMessage(msg.content, msg.authorId, guild)), highlightTime)
      case TextChannel(id) =>
        var c := HandleChatMessage(msg.content, msg.authorName, id, guild, highlightTime, now);
        (Chat(c.0), c.1)
      case OtherChannel => (Ignored, highlightTime)
  }
}

=== FILE: legacy_bot.dfy ===
/** The JavaScript edition of the bot (index.js): command tokens, the highlight
    cooldown kept as the next allowed date, the highlight request pipeline and
    the channel-message filter. Times are integer milliseconds; the
    configuration file becomes a `JsConfig` value. */
module LegacyBot {

  import opened Wrappers
  import opened Text
  import opened Platform
  import Commands

  /** The `config.json` fields the core reads. */
  datatype JsConfig = JsConfig(botId: U64, guildId: U64, highlightChannelId: U64,
                               highlightRoles: seq<U64>, timeoutMillis: int)

  // ---------------------------------------------------------------------------
  // getTokens
  // ---------------------------------------------------------------------------

  /** `getTokens`: drop the one-character command token, split on spaces and
      drop the empty pieces. */
  function GetTokens(content: string): (r: seq<string>)
    ensures |content| >= 1 ==> r == Words(content[1..])
    ensures forall k :: 0 <= k < |r| ==> r[k] != "" && ' ' !in r[k]
  {
    Words(if |content| == 0 then "" else content[1..])
  }

  /** The documented example `.command  hello   hi ` gives `command`, `hello`
      and `hi`: runs of spaces and a trailing space leave no empty token,
      whatever the three words are. */
  lemma GetTokensExample(command: string, a: string, b: string)
    requires IsWord(command) && IsWord(a) && IsWord(b)
    ensures GetTokens([CommandCharacter] + command + "  " + a + "   " + b + " ") == [command, a, b]
  {
    WordAlone(command);
    WordAlone(a);
    WordAlone(b);
    var line := command + "  " + a + "   " + b + " ";
    WordsAroundGap(command, "  ", a);
    WordsAroundGap(command + "  " + a, "   ", b);
    WordsAroundGap(command + "  " + a + "   " + b, " ", "");
    assert line + "" == line;
    assert Words("") == [] by {
      WordsOfJoin([]);
      assert JoinWith([], ' ') == "";
    }
    assert ([CommandCharacter] + command + "  " + a + "   " + b + " ")[1..] == line;
  }

  /** The C# tokens of a command message are the JavaScript tokens with the
      command character put back on the first one, as long as the command
      word follows the command character directly. */
  lemma TokensAgreeWithChatTokens(content: string)
    requires |content| >= 2 && content[0] == CommandCharacter && content[1] != ' '
    ensures |GetTokens(content)| >= 1 && |Words(content)| == |GetTokens(content)|
    ensures Words(content)[0] == [CommandCharacter] + GetTokens(content)[0]
    ensures Words(content)[1..] == GetTokens(content)[1..]
  {
    var rest := content[1..];
    assert content == [CommandCharacter] + rest;
    SplitPrefix([CommandCharacter], rest, ' ');
    var pieces := SplitOn(rest, ' ');
    assert pieces[0] != "" by {
      SplitPrefix([rest[0]], rest[1..], ' ');
      assert rest == [rest[0]] + rest[1..];
    }
    assert NonEmpty(pieces) == [pieces[0]] + NonEmpty(pieces[1..]);
    var first := [CommandCharacter] + pieces[0];
    assert SplitOn(content, ' ') == [first] + pieces[1..];
    assert NonEmpty([first] + pieces[1..]) == [first] + NonEmpty(pieces[1..]);
  }

  // ---------------------------------------------------------------------------
  // getTimeUntilHighlight
  // ---------------------------------------------------------------------------

  datatype TimeUntil = TimeUntil(canHighlight: bool, minutes: int, seconds: int)

  /** `getTimeUntilHighlight` for `d = nextDateToHighlight - now` in
      milliseconds: `Math.floor(d / 60000)` minutes and
      `Math.floor((d / 1000) % 60)` seconds, where JavaScript's `%` keeps the
      sign of the dividend. */
  function GetTimeUntilHighlight(d: int): (t: TimeUntil)
    ensures t.canHighlight <==> d <= 0
    ensures t.minutes * 60000 <= d < (t.minutes + 1) * 60000
    ensures -60 <= t.seconds < 60 && (d >= 0 ==> t.seconds >= 0) && (d < 0 ==> t.seconds <= 0)
  {
    var seconds := if d >= 0 then (d % 60000) / 1000 else 0 - (((0 - d) % 60000) + 999) / 1000;
    TimeUntil(d <= 0, d / 60000, seconds)
  }

  /** While the cooldown runs, the reply names whole minutes and the seconds
      beyond them, together the wait rounded down to the second. */
  lemma {:induction false} CooldownReplySplitsWait(d: int)
    requires d > 0
    ensures var t := GetTimeUntilHighlight(d);
      0 <= t.seconds < 60
      && t.minutes * 60000 + t.seconds * 1000 <= d < t.minutes * 60000 + (t.seconds + 1) * 1000
  {
    var t := GetTimeUntilHighlight(d);
    var rem := d % 60000;
    assert d == t.minutes * 60000 + rem;
    assert (rem / 1000) * 1000 <= rem < (rem / 1000 + 1) * 1000;
  }

  /** With a 15-minute timeout the JavaScript gate is the C# gate: a highlight
      at `lastMs` makes the next one possible exactly when the C# check on
      the same instants in ticks allows it. */
  lemma GateMatchesCSharp(lastMs: int, nowMs: int)
    ensures GetTimeUntilHighlight(lastMs + 900000 - nowMs).canHighlight
        <==> Commands.CanHighlight(lastMs * 10000, nowMs * 10000)
  {
  }

  /** `nextDateToHighlight` starts at start-up time, so the first request after
      start-up passes the cooldown. */
  lemma FirstJsHighlightAllowed(startupMs: int, nowMs: int)
    requires startupMs <= nowMs
    ensures GetTimeUntilHighlight(startupMs - nowMs).canHighlight
  {
  }

  // ---------------------------------------------------------------------------
  // findHighlightableRole
  // ---------------------------------------------------------------------------

  /** `findHighlightableRole`: the case-insensitive name match, kept only when
      its id is on the configured highlight list. */
  function FindHighlightableRole(roleName: string, roles: seq<Role>, cfg: JsConfig): (r: Option<Role>)
    ensures r.Some? <==>
      FindRoleFromName(roles, roleName).Some? && FindRoleFromName(roles, roleName).value.id in cfg.highlightRoles
    ensures r.Some? ==> r.value == FindRoleFromName(roles, roleName).value && SameIgnoringCase(r.value.name, roleName)
  {
    match FindRoleFromName(roles, roleName)
    case Some(role) => if role.id in cfg.highlightRoles then Some(role) else None
    case None => None
  }

  // ---------------------------------------------------------------------------
  // requestHighlight
  // ---------------------------------------------------------------------------

  /** `Highlighted` posts `<role> (from <sender>): <body>`; `HighlightUndelivered`
      is a permitted highlight whose mentionable toggle or post failed, which
      is only logged. */
  datatype JsHighlightOutcome =
    | UsageThrows
    | JsUsage
    | Throttled(minutes: int, seconds: int)
    | WrongChannel
    | RoleRejected
    | Highlighted(roleId: U64, sender: string, body: string)
    | HighlightUndelivered(roleId: U64)

  /** The checks after the token count, in the code's order: cooldown, then
      channel, then role. `delivered` is the clock reading when the post went
      through, or `None` when it failed; only a delivered post moves
      `nextDateToHighlight`. Returns the outcome and the new next date. */
  function HighlightChecks(tokens: seq<string>, sender: string, channelId: U64, roles: seq<Role>,
                           cfg: JsConfig, next: int, now: int, delivered: Option<int>): (r: (JsHighlightOutcome, int))
    requires |tokens| >= 3
  {
    var time := GetTimeUntilHighlight(next - now);
    if !time.canHighlight then (Throttled(time.minutes, time.seconds), next)
    else if channelId != cfg.highlightChannelId then (WrongChannel, next)
    else match FindHighlightableRole(tokens[1], roles, cfg)
      case None => (RoleRejected, next)
      case Some(role) =>
        match delivered
        case Some(at) => (Highlighted(role.id, sender, JoinWith(tokens[2..], ' ')), at + cfg.timeoutMillis)
        case None => (HighlightUndelivered(role.id), next)
  }

  /** `requestHighlight` as written: with fewer than three tokens the usage
      branch reads `channel` before its `const` declaration, which throws a
      `ReferenceError`, so no usage reply is sent. */
  function RequestHighlightAsWritten(tokens: seq<string>, sender: string, channelId: U64, roles: seq<Role>,
                                     cfg: JsConfig, next: int, now: int, delivered: Option<int>): (r: (JsHighlightOutcome, int))
    ensures r.0 == UsageThrows <==> |tokens| < 3
    ensures r.0 != JsUsage
  {
    if |tokens| < 3 then (UsageThrows, next)
    else HighlightChecks(tokens, sender, channelId, roles, cfg, next, now, delivered)
  }

  /** A short request never gets its usage reply. */
  lemma ShortRequestThrows(sender: string, channelId: U64, roles: seq<Role>,
                           cfg: JsConfig, next: int, now: int, delivered: Option<int>)
    ensures |GetTokens(".highlight")| == 1
    ensures RequestHighlightAsWritten(GetTokens(".highlight"), sender, channelId, roles, cfg, next, now, delivered)
         == (UsageThrows, next)
  {
    assert ".highlight"[1..] == "highlight";
    assert ' ' !in "highlight";
    WordAlone("highlight");
  }

  /** `requestHighlight` as evidently intended: a short request is answered with
      the usage text. The cooldown is checked before the channel, the reverse
      of the C# order. */
  function RequestHighlight(tokens: seq<string>, sender: string, channelId: U64, roles: seq<Role>,
                            cfg: JsConfig, next: int, now: int, delivered: Option<int>): (r: (JsHighlightOutcome, int))
    ensures r.0 == JsUsage <==> |tokens| < 3
    ensures r.0 != UsageThrows
    ensures r.0.Throttled? <==> |tokens| >= 3 && next - now > 0
    ensures r.0.Throttled? ==>
      r.0.minutes == GetTimeUntilHighlight(next - now).minutes && r.0.seconds == GetTimeUntilHighlight(next - now).seconds
    ensures r.0 == WrongChannel <==> |tokens| >= 3 && next - now <= 0 && channelId != cfg.highlightChannelId
    ensures r.0 == RoleRejected <==>
      |tokens| >= 3 && next - now <= 0 && channelId == cfg.highlightChannelId
      && FindHighlightableRole(tokens[1], roles, cfg).None?
    ensures r.0.Highlighted? <==>
      |tokens| >= 3 && next - now <= 0 && channelId == cfg.highlightChannelId
      && FindHighlightableRole(tokens[1], roles, cfg).Some? && delivered.Some?
    ensures r.0.Highlighted? ==>
      r.1 == delivered.value + cfg.timeoutMillis && r.0.roleId == FindHighlightableRole(tokens[1], roles, cfg).value.id
      && r.0.sender == sender && r.0.body == JoinWith(tokens[2..], ' ')
    ensures !r.0.Highlighted? ==> r.1 == next
    ensures |tokens| >= 3 ==> r == RequestHighlightAsWritten(tokens, sender, channelId, roles, cfg, next, now, delivered)
  {
    if |tokens| < 3 then (JsUsage, next)
    else HighlightChecks(tokens, sender, channelId, roles, cfg, next, now, delivered)
  }

  /** The cooldown reply's minutes and seconds describe the remaining wait,
      rounded down to the second. */
  lemma CooldownReplyWithinJsWindow(tokens: seq<string>, sender: string, channelId: U64, roles: seq<Role>,
                                    cfg: JsConfig, next: int, now: int, delivered: Option<int>)
    requires RequestHighlight(tokens, sender, channelId, roles, cfg, next, now, delivered).0.Throttled?
    ensures var o := RequestHighlight(tokens, sender, channelId, roles, cfg, next, now, delivered).0;
      0 <= o.seconds < 60
      && o.minutes * 60000 + o.seconds * 1000 <= next - now < o.minutes * 60000 + (o.seconds + 1) * 1000
  {
    CooldownReplySplitsWait(next - now);
  }

  /** The two editions disagree on a request in the wrong channel during the
      cooldown: JavaScript reports the cooldown, C# the channel. */
  lemma CheckOrderDiffers(tokens: seq<string>, sender: string, channelId: U64, roles: seq<Role>,
                          cfg: JsConfig, lastMs: int, nowMs: int, delivered: Option<int>)
    requires |tokens| >= 3 && cfg.timeoutMillis == 900000 && cfg.highlightChannelId == HighlightChannelId
    requires channelId != HighlightChannelId && lastMs <= nowMs < lastMs + 900000
    ensures RequestHighlight(tokens, sender, channelId, roles, cfg, lastMs + 900000, nowMs, delivered).0.Throttled?
    ensures Commands.HandleHighlight(tokens, sender, channelId, roles, lastMs * 10000, nowMs * 10000).0
         == Commands.NotHighlightChannel
  {
  }

  // ---------------------------------------------------------------------------
  // handleChannelMessage and the message event
  // ---------------------------------------------------------------------------

  datatype JsChannelKind = Dm | Text | OtherKind

  datatype JsMessage = JsMessage(authorId: U64, authorName: string, kind: JsChannelKind,
                                 guildId: U64, channelId: U64, content: string)

  datatype JsReaction = JsIgnored | JsHighlight(outcome: JsHighlightOutcome)

  /** `handleChannelMessage`: bot-authored, other-guild and non-command
      messages and messages without tokens are ignored; `highlight` in any
      letter case is dispatched; other commands are ignored. */
  function HandleChannelMessage(msg: JsMessage, cfg: JsConfig, roles: seq<Role>, next: int, now: int,
                                delivered: Option<int>): (r: (JsReaction, int))
    ensures r.0.JsHighlight? <==>
      msg.authorId != cfg.botId && msg.guildId == cfg.guildId && |msg.content| >= 1
      && msg.content[0] == CommandCharacter && GetTokens(msg.content) != []
      && Upper(GetTokens(msg.content)[0]) == "HIGHLIGHT"
    ensures r.0.JsHighlight? ==>
      (r.0.outcome, r.1) == RequestHighlight(GetTokens(msg.content), msg.authorName, msg.channelId, roles,
                                             cfg, next, now, delivered)
    ensures r.0 == JsIgnored ==> r.1 == next
  {
    if msg.authorId == cfg.botId || msg.guildId != cfg.guildId
       || |msg.content| == 0 || msg.content[0] != CommandCharacter then (JsIgnored, next)
    else
      var tokens := GetTokens(msg.content);
      if |tokens| == 0 || Upper(tokens[0]) != "HIGHLIGHT" then (JsIgnored, next)
      else
        var h := RequestHighlight(tokens, msg.authorName, msg.channelId, roles, cfg, next, now, delivered);
        (JsHighlight(h.0), h.1)
  }

  /** The `message` event: direct messages reach a handler that does nothing
      yet; text messages of the configured guild go to `handleChannelMessage`. */
  function MessageEvent(msg: JsMessage, cfg: JsConfig, roles: seq<Role>, next: int, now: int,
                        delivered: Option<int>): (r: (JsReaction, int))
    ensures msg.kind != Text ==> r == (JsIgnored, next)
    ensures msg.authorId == cfg.botId ==> r == (JsIgnored, next)
    ensures msg.kind == Text ==> r == HandleChannelMessage(msg, cfg, roles, next, now, delivered)
  {
    if msg.kind == Text && msg.guildId == cfg.guildId then HandleChannelMessage(msg, cfg, roles, next, now, delivered)
    else (JsIgnored, next)
  }

  /** Only a delivered highlight moves the next allowed date, and it moves it
      to the timeout past the delivery. */
  lemma NextDateMovesOnlyOnDelivery(msg: JsMessage, cfg: JsConfig, roles: seq<Role>, next: int, now: int,
                                    delivered: Option<int>)
    ensures var r := MessageEvent(msg, cfg, roles, next, now, delivered);
      r.1 != next ==> delivered.Some? && r.1 == delivered.value + cfg.timeoutMillis
                      && r.0.JsHighlight? && r.0.outcome.Highlighted?
  {
  }
}

=== FILE: numbers.dfy ===
/** Integer arithmetic as the C# runtime performs it: 32-bit wrap-around and
    division that truncates toward zero (Dafny's own `/` and `%` are
    Euclidean). */
module Numbers {

  const TwoTo31: int := 0x8000_0000
  const TwoTo32: int := 0x1_0000_0000

  predicate IsInt32(x: int) { -TwoTo31 <= x < TwoTo31 }

  /** The value an unchecked C# `int` expression holds when the exact result is `x`. */
  function Wrap32(x: int): (r: int)
    ensures IsInt32(r)
    ensures (r - x) % TwoTo32 == 0
    ensures IsInt32(x) ==> r == x
  {
    (x + TwoTo31) % TwoTo32 - TwoTo31
  }

  /** C#'s `/` on integers: the quotient rounded toward zero. */
  function TruncDiv(a: int, b: int): (q: int)
    requires b > 0
    ensures a >= 0 ==> q == a / b
    ensures a >= 0 ==> q * b <= a < (q + 1) * b
    ensures a < 0 ==> q <= 0 && a <= q * b < a + b
  {
    if a >= 0 then a / b else -((-a) / b)
  }

  /** C#'s `%` on integers: the remainder takes the sign of the dividend. */
  function TruncRem(a: int, b: int): (r: int)
    requires b > 0
    ensures a == TruncDiv(a, b) * b + r
    ensures a >= 0 ==> 0 <= r < b
    ensures a < 0 ==> -b < r <= 0
  {
    a - TruncDiv(a, b) * b
  }
}

=== FILE: platform.dfy ===
/** The guild as the bot observes it at one instant, the deployment's fixed
    identifiers, and the lookups and authorisation predicates every handler
    shares (Bot.cs). The Discord client is replaced by an immutable snapshot:
    roles are `(id, name)` pairs in the order the guild lists them, members
    carry their role-id sets. */
module Platform {

  import opened Wrappers
  import opened Text
  import opened Numbers
  import opened Seqs

  const TwoTo64: int := 0x1_0000_0000_0000_0000

  /** Discord snowflakes are C# `ulong`s. */
  type U64 = x: int | 0 <= x < TwoTo64

  const CommandCharacter: char := '.'
  const GuildId: U64 := 480611202679177216
  const ManagerRoleId: U64 := 480909038108934195
  const StaffRoleId: U64 := 480911020827869194
  const HighlightChannelId: U64 := 480611202679177218

  /** The self-service roles: members may add or remove them, and only they can be highlighted. */
  const JoinRoleIds: set<U64> := {616429614620868646, 559930385711104000, 559930515055050752}

  datatype Role = Role(id: U64, name: string)

  /** A guild member; `nickname` is the display name override, absent when the member has none. */
  datatype Member = Member(id: U64, username: string, nickname: Option<string>, roleIds: set<U64>)

  datatype Guild = Guild(available: bool, members: seq<Member>, roles: seq<Role>)

  /** `Guild.GetUserAsync(id)`: the member with that id, or null. */
  function GetUser(guild: Guild, id: U64): (r: Option<Member>)
    ensures r.Some? ==> r.value in guild.members && r.value.id == id
    ensures r.None? <==> forall i :: 0 <= i < |guild.members| ==> guild.members[i].id != id
  {
    match FirstIndex(guild.members, (m: Member) => m.id == id)
    case Some(i) => Some(guild.members[i])
    case None => None
  }

  /** `Guild.GetRole(id)`: the role with that id, or null. */
  function GetRole(guild: Guild, id: U64): (r: Option<Role>)
    ensures r.Some? ==> r.value in guild.roles && r.value.id == id
    ensures r.None? <==> forall i :: 0 <= i < |guild.roles| ==> guild.roles[i].id != id
  {
    match FirstIndex(guild.roles, (role: Role) => role.id == id)
    case Some(i) => Some(guild.roles[i])
    case None => None
  }

  /** A user outside the guild holds no role. */
  predicate HasRole(guild: Guild, userId: U64, roleId: U64)
    ensures GetUser(guild, userId).None? ==> !HasRole(guild, userId, roleId)
    ensures HasRole(guild, userId, roleId) <==>
      exists i :: 0 <= i < |guild.members| && guild.members[i].id == userId && roleId in guild.members[i].roleIds
                  && forall j :: 0 <= j < i ==> guild.members[j].id != userId
  {
    match GetUser(guild, userId)
    case Some(m) => roleId in m.roleIds
    case None => false
  }

  predicate IsManager(guild: Guild, userId: U64) { HasRole(guild, userId, ManagerRoleId) }

  predicate IsStaff(guild: Guild, userId: U64) { HasRole(guild, userId, StaffRoleId) }

  predicate IsStaffOrManager(guild: Guild, userId: U64) { IsManager(guild, userId) || IsStaff(guild, userId) }

  /** The three authorisation tiers, read from live role membership on every call. */
  datatype Tier = MemberTier | StaffTier | ManagerTier

  function TierOf(guild: Guild, userId: U64): (t: Tier)
    ensures t == ManagerTier <==> IsManager(guild, userId)
    ensures t == StaffTier <==> IsStaff(guild, userId) && !IsManager(guild, userId)
  {
    if IsManager(guild, userId) then ManagerTier
    else if IsStaff(guild, userId) then StaffTier
    else MemberTier
  }

  /** Staff-level commands are open exactly to the staff and manager tiers;
      a member who is not in the guild is in the member tier. */
  lemma StaffOrManagerIsTierAboveMember(guild: Guild, userId: U64)
    ensures IsStaffOrManager(guild, userId) <==> TierOf(guild, userId) != MemberTier
    ensures GetUser(guild, userId).None? ==> TierOf(guild, userId) == MemberTier
  {
  }

  /** `FindRoleFromName`: the first role, in guild order, whose name equals
      `name` ignoring case; null when none does. */
  function FindRoleFromName(roles: seq<Role>, name: string): (r: Option<Role>)
    ensures r.Some? ==> r.value in roles && SameIgnoringCase(r.value.name, name)
    ensures r.Some? ==> exists i :: 0 <= i < |roles| && roles[i] == r.value
                          && forall j :: 0 <= j < i ==> !SameIgnoringCase(roles[j].name, name)
    ensures r.None? <==> forall i :: 0 <= i < |roles| ==> !SameIgnoringCase(roles[i].name, name)
  {
    match FirstIndex(roles, (role: Role) => SameIgnoringCase(role.name, name))
    case Some(i) => Some(roles[i])
    case None => None
  }

  // ---------------------------------------------------------------------------
  // IsNewAccount
  // ---------------------------------------------------------------------------

  /** Milliseconds from the Unix epoch to the Discord epoch (2015-01-01). */
  const DiscordEpochMs: int := 1420070400000
  const MillisPerDay: int := 86400000
  const TwoTo63: int := 0x8000_0000_0000_0000

  /** The creation time a snowflake encodes, `(id >> 22) + 1420070400000`, in
      Unix milliseconds; the `(long)` cast of this `ulong` never changes it. */
  function CreationMs(snowflake: U64): (ms: int)
    ensures DiscordEpochMs <= ms < TwoTo63
  {
    snowflake / 0x40_0000 + DiscordEpochMs
  }

  /** `IsNewAccount`: the whole days (`TimeSpan.Days`, truncated toward zero)
      between creation and `nowMs` are fewer than seven. */
  predicate IsNewAccount(snowflake: U64, nowMs: int)
  {
    TruncDiv(nowMs - CreationMs(snowflake), MillisPerDay) < 7
  }

  /** An account is new exactly when it was created less than seven days
      (604800000 ms) before `nowMs`, including creation times in the future. */
  lemma NewAccountIffUnderAWeek(snowflake: U64, nowMs: int)
    ensures IsNewAccount(snowflake, nowMs) <==> nowMs < CreationMs(snowflake) + 7 * MillisPerDay
  {
    var elapsed := nowMs - CreationMs(snowflake);
    var days := TruncDiv(elapsed, MillisPerDay);
    if elapsed >= 0 {
      assert days * MillisPerDay <= elapsed < (days + 1) * MillisPerDay;
      if days < 7 {
        assert days + 1 <= 7;
        assert (days + 1) * MillisPerDay <= 7 * MillisPerDay;
      } else {
        assert 7 * MillisPerDay <= days * MillisPerDay;
      }
    }
  }
}

=== FILE: quoted_split.dfy ===
/** The quote-aware tokeniser `SplitQuoted` (Util.cs). The regular expression
    `["].+?["]|[^ ]+` is scanned left to right: at each position the quoted
    alternative is tried first, then a run of non-spaces; a space that starts
    neither is skipped. Every match's text then loses all its `"` characters. */
module QuotedSplit {

  import opened Wrappers
  import opened Text

  const Quote: char := '"'

  /** One regex match: the half-open span `[start, end)` of the input. */
  datatype Piece = Piece(start: nat, end: nat)

  /** The lazy `.+?["]` tail: the first quote at index `j` or later, provided
      no line feed comes before it. */
  function CloseFrom(s: string, j: nat): (r: Option<nat>)
    ensures r.Some? ==> j <= r.value < |s| && s[r.value] == Quote
    ensures r.Some? ==> forall k :: j <= k < r.value ==> s[k] != Quote && s[k] != '\n'
    ensures r.None? ==> forall k :: j <= k < |s| && s[k] == Quote ==> exists m :: j <= m < k && s[m] == '\n'
    decreases |s| - j
  {
    if j >= |s| then None
    else if s[j] == Quote then Some(j)
    else if s[j] == '\n' then None
    else CloseFrom(s, j + 1)
  }

  /** The end of the quoted alternative started by the quote at `p`, if it
      matches there: at least one character that is not a line feed, then the
      first quote after it. */
  function QuotedEnd(s: string, p: nat): (r: Option<nat>)
    requires p < |s| && s[p] == Quote
    ensures r.Some? ==> p + 3 <= r.value <= |s| && s[r.value - 1] == Quote
    ensures r.Some? ==> forall k :: p < k < r.value - 1 ==> s[k] != '\n'
    ensures r.Some? ==> forall k :: p + 2 <= k < r.value - 1 ==> s[k] != Quote
    ensures r.None? ==> forall k :: p + 2 <= k < |s| && s[k] == Quote ==>
                          exists m :: p < m < k && s[m] == '\n'
  {
    if p + 1 < |s| && s[p + 1] != '\n' then
      match CloseFrom(s, p + 2)
      case Some(j) => Some(j + 1)
      case None => None
    else None
  }

  /** The end of the greedy `[^ ]+` run starting at `p`. */
  function RunEnd(s: string, p: nat): (e: nat)
    requires p <= |s|
    ensures p <= e <= |s|
    ensures forall k :: p <= k < e ==> s[k] != ' '
    ensures e == |s| || s[e] == ' '
    decreases |s| - p
  {
    if p == |s| || s[p] == ' ' then p else RunEnd(s, p + 1)
  }

  /** `Regex.Matches(s, ...)` from position `p` on. */
  function Matches(s: string, p: nat): (r: seq<Piece>)
    ensures forall i :: 0 <= i < |r| ==> p <= r[i].start < r[i].end <= |s|
    ensures forall i :: 0 <= i < |r| - 1 ==> r[i].end <= r[i + 1].start
    ensures forall i :: 0 <= i < |r| && s[r[i].start] == Quote && QuotedEnd(s, r[i].start).Some? ==>
      r[i].end == QuotedEnd(s, r[i].start).value
    decreases |s| - p
  {
    if p >= |s| then []
    else if s[p] == Quote && QuotedEnd(s, p).Some? then
      var e := QuotedEnd(s, p).value;
      var rest := Matches(s, e);
      assert forall i :: 0 < i < |rest| + 1 ==> ([Piece(p, e)] + rest)[i] == rest[i - 1];
      [Piece(p, e)] + rest
    else if s[p] != ' ' then
      var e := RunEnd(s, p);
      var rest := Matches(s, e);
      assert forall i :: 0 < i < |rest| + 1 ==> ([Piece(p, e)] + rest)[i] == rest[i - 1];
      [Piece(p, e)] + rest
    else Matches(s, p + 1)
  }

  /** `Replace("\"", "")`. */
  function StripQuotes(t: string): (r: string)
    ensures Quote !in r
    ensures forall c :: c != Quote ==> (c in r <==> c in t)
    ensures Quote !in t ==> r == t
  {
    if |t| == 0 then ""
    else if t[0] == Quote then StripQuotes(t[1..])
    else [t[0]] + StripQuotes(t[1..])
  }

  /** The text of each match, quotes removed. */
  function Texts(s: string, ms: seq<Piece>): (r: seq<string>)
    requires forall i :: 0 <= i < |ms| ==> ms[i].start <= ms[i].end <= |s|
    ensures |r| == |ms|
    ensures forall i :: 0 <= i < |r| ==> r[i] == StripQuotes(s[ms[i].start..ms[i].end])
  {
    if |ms| == 0 then [] else [StripQuotes(s[ms[0].start..ms[0].end])] + Texts(s, ms[1..])
  }

  /** `SplitQuoted`. */
  function SplitQuoted(s: string): (r: seq<string>)
    ensures |r| == |Matches(s, 0)|
    ensures forall i :: 0 <= i < |r| ==> Quote !in r[i]
  {
    Texts(s, Matches(s, 0))
  }

  /** A match is either a quoted group (opening and closing quote, at least one
      character between them, no line feed inside, closed at the first quote
      that can close it) or a maximal run without spaces. */
  predicate QuotedGroup(s: string, pc: Piece)
  {
    pc.start + 3 <= pc.end <= |s| && s[pc.start] == Quote && s[pc.end - 1] == Quote
    && (forall k :: pc.start < k < pc.end - 1 ==> s[k] != '\n')
    && (forall k :: pc.start + 2 <= k < pc.end - 1 ==> s[k] != Quote)
  }

  predicate SpaceFreeRun(s: string, pc: Piece)
  {
    pc.start < pc.end <= |s| && (forall k :: pc.start <= k < pc.end ==> s[k] != ' ')
    && (pc.end == |s| || s[pc.end] == ' ')
  }

  lemma {:induction false} MatchShapes(s: string, p: nat)
    ensures forall i :: 0 <= i < |Matches(s, p)| ==>
      QuotedGroup(s, Matches(s, p)[i]) || SpaceFreeRun(s, Matches(s, p)[i])
    decreases |s| - p
  {
    if p < |s| {
      if s[p] == Quote && QuotedEnd(s, p).Some? {
        MatchShapes(s, QuotedEnd(s, p).value);
      } else if s[p] != ' ' {
        MatchShapes(s, RunEnd(s, p));
      } else {
        MatchShapes(s, p + 1);
      }
    }
  }

  /** Some match of `ms` spans index `k`. */
  predicate Covers(ms: seq<Piece>, k: nat)
  {
    exists i :: 0 <= i < |ms| && ms[i].start <= k < ms[i].end
  }

  /** A match in front keeps every index the later matches span covered. */
  lemma CoversPrepend(pc: Piece, ms: seq<Piece>, k: nat)
    requires Covers(ms, k)
    ensures Covers([pc] + ms, k)
  {
    var i :| 0 <= i < |ms| && ms[i].start <= k < ms[i].end;
    assert ([pc] + ms)[i + 1] == ms[i];
  }

  /** At a character other than a space the scan takes one match and goes on
      where it ends. */
  lemma MatchesStep(s: string, p: nat) returns (e: nat)
    requires p < |s| && s[p] != ' '
    ensures p < e <= |s|
    ensures Matches(s, p) == [Piece(p, e)] + Matches(s, e)
  {
    if s[p] == Quote && QuotedEnd(s, p).Some? {
      e := QuotedEnd(s, p).value;
    } else {
      e := RunEnd(s, p);
    }
  }

  /** Nothing but spaces is dropped: every other character from `p` on lies
      inside some match. */
  lemma {:induction false} MatchesCover(s: string, p: nat, k: nat)
    requires p <= k < |s| && s[k] != ' '
    ensures Covers(Matches(s, p), k)
    decreases |s| - p
  {
    if s[p] == ' ' {
      MatchesAtSpace(s, p);
      MatchesCover(s, p + 1, k);
    } else {
      var e := MatchesStep(s, p);
      if k < e {
        assert Matches(s, p)[0] == Piece(p, e);
      } else {
        MatchesCover(s, e, k);
        CoversPrepend(Piece(p, e), Matches(s, e), k);
      }
    }
  }

  /** A string of spaces only (the empty string included) has no match. */
  lemma {:induction false} BlankHasNoMatches(s: string, p: nat)
    requires forall k :: p <= k < |s| ==> s[k] == ' '
    ensures Matches(s, p) == []
    decreases |s| - p
  {
    if p < |s| {
      BlankHasNoMatches(s, p + 1);
    }
  }

  /** Tokens follow the input left to right, and splitting yields nothing
      exactly when the input is empty or all spaces. */
  lemma SplitQuotedShape(s: string)
    ensures var ms := Matches(s, 0);
      forall i :: 0 <= i < |ms| - 1 ==> ms[i].end <= ms[i + 1].start
    ensures forall i :: 0 <= i < |Matches(s, 0)| ==>
      QuotedGroup(s, Matches(s, 0)[i]) || SpaceFreeRun(s, Matches(s, 0)[i])
    ensures SplitQuoted(s) == [] <==> forall k :: 0 <= k < |s| ==> s[k] == ' '
  {
    MatchShapes(s, 0);
    if forall k :: 0 <= k < |s| ==> s[k] == ' ' {
      BlankHasNoMatches(s, 0);
    } else {
      var k :| 0 <= k < |s| && s[k] != ' ';
      MatchesCover(s, 0, k);
    }
  }

  /** A token that does not come from a quoted group has no space in it. */
  lemma UnquotedTokensHaveNoSpace(s: string, i: nat)
    requires i < |Matches(s, 0)|
    requires !QuotedGroup(s, Matches(s, 0)[i])
    ensures ' ' !in SplitQuoted(s)[i]
  {
    MatchShapes(s, 0);
    var pc := Matches(s, 0)[i];
    assert ' ' !in s[pc.start..pc.end];
  }

  /** Without quotes in the input, `SplitQuoted` is the plain split on spaces
      with empty pieces dropped. */
  lemma UnquotedSplitIsWords(s: string)
    requires Quote !in s
    ensures SplitQuoted(s) == Words(s)
  {
    UnquotedWordsFrom(s, 0);
    assert s[0..] == s;
  }

  /** A leading space only ends an empty piece, which is dropped. */
  lemma WordsAfterSpace(t: string)
    requires |t| >= 1 && t[0] == ' '
    ensures Words(t) == Words(t[1..])
  {
    assert t == [' '] + t[1..];
    assert SplitOn(t, ' ') == [""] + SplitOn(t[1..], ' ');
  }

  /** A space-free word followed by the end or by a space is the first word. */
  lemma WordsOfRun(a: string, t: string)
    requires a != "" && ' ' !in a
    requires t == "" || t[0] == ' '
    ensures Words(a + t) == [a] + Words(t)
  {
    SplitPrefix(a, t, ' ');
    var tail := SplitOn(t, ' ');
    if t == "" {
      assert tail == [""];
      assert a + t == a && a + tail[0] == a;
      assert SplitOn(a + t, ' ') == [a];
      assert NonEmpty([a]) == [a] + NonEmpty([]);
      assert NonEmpty([""]) == [];
    } else {
      assert t == [' '] + t[1..];
      assert tail == [""] + SplitOn(t[1..], ' ');
      assert a + tail[0] == a;
      assert SplitOn(a + t, ' ') == [a] + tail[1..];
      assert NonEmpty([a] + tail[1..]) == [a] + NonEmpty(tail[1..]);
      assert NonEmpty(tail) == NonEmpty(tail[1..]);
    }
  }

  lemma {:induction false} UnquotedWordsFrom(s: string, p: nat)
    requires p <= |s|
    requires Quote !in s
    ensures Texts(s, Matches(s, p)) == Words(s[p..])
    decreases |s| - p
  {
    if p == |s| {
      assert SplitOn(s[p..], ' ') == [""];
    } else if s[p] == ' ' {
      UnquotedWordsFrom(s, p + 1);
      WordsAfterSpace(s[p..]);
      assert s[p..][1..] == s[p + 1..];
    } else {
      var e := RunEnd(s, p);
      UnquotedWordsFrom(s, e);
      var a := s[p..e];
      assert ' ' !in a;
      assert Quote !in a;
      assert s[p..] == a + s[e..];
      WordsOfRun(a, s[e..]);
      var ms := Matches(s, p);
      assert ms == [Piece(p, e)] + Matches(s, e);
      assert Texts(s, ms) == [a] + Texts(s, Matches(s, e));
    }
  }

  /** Removing quotes works piece by piece. */
  lemma {:induction false} StripQuotesAppend(a: string, b: string)
    ensures StripQuotes(a + b) == StripQuotes(a) + StripQuotes(b)
    decreases |a|
  {
    if |a| > 0 {
      var ab := a + b;
      assert ab[0] == a[0];
      assert ab[1..] == a[1..] + b;
      StripQuotesAppend(a[1..], b);
      var x, y := StripQuotes(a[1..]), StripQuotes(b);
      if a[0] != Quote {
        assert StripQuotes(ab) == [a[0]] + (x + y);
        assert StripQuotes(a) == [a[0]] + x;
        assert [a[0]] + (x + y) == [a[0]] + x + y;
      }
    } else {
      assert a + b == b;
    }
  }

  /** A quoted group's text is what lies between its quotes, when that holds no quote. */
  lemma StripEnclosingQuotes(t: string)
    requires Quote !in t
    ensures StripQuotes([Quote] + t + [Quote]) == t
  {
    StripQuotesAppend([Quote] + t, [Quote]);
    StripQuotesAppend([Quote], t);
    assert StripQuotes([Quote]) == "";
  }

  const ExampleInput: string := "hi there \"mr person\" :)"

  lemma ExampleQuotedGroup()
    ensures QuotedEnd(ExampleInput, 9) == Some(20)
    ensures RunEnd(ExampleInput, 21) == 23
  {
    var s := ExampleInput;
    assert forall k :: 11 <= k < 19 ==> s[k] != Quote && s[k] != '\n';
    assert s[19] == Quote;
    assert CloseFrom(s, 11) == Some(19);
  }

  /** `RunEnd` stops at the first space or at the end. */
  lemma {:induction false} RunEndIs(s: string, p: nat, e: nat)
    requires p <= e <= |s|
    requires forall k :: p <= k < e ==> s[k] != ' '
    requires e == |s| || s[e] == ' '
    ensures RunEnd(s, p) == e
    decreases e - p
  {
    if p < e {
      RunEndIs(s, p + 1, e);
    }
  }

  lemma ExampleRuns()
    ensures RunEnd(ExampleInput, 0) == 2 && RunEnd(ExampleInput, 3) == 8
  {
    var s := ExampleInput;
    assert s[0] == 'h' && s[1] == 'i' && s[2] == ' ';
    RunEndIs(s, 0, 2);
    assert forall k :: 3 <= k < 8 ==> s[k] != ' ';
    assert s[8] == ' ';
    RunEndIs(s, 3, 8);
  }

  lemma MatchesAtSpace(s: string, p: nat)
    requires p < |s| && s[p] == ' '
    ensures Matches(s, p) == Matches(s, p + 1)
  {
  }

  lemma MatchesAtRun(s: string, p: nat)
    requires p < |s| && s[p] != ' ' && s[p] != Quote
    ensures Matches(s, p) == [Piece(p, RunEnd(s, p))] + Matches(s, RunEnd(s, p))
  {
  }

  lemma MatchesAtGroup(s: string, p: nat, e: nat)
    requires p < |s| && s[p] == Quote && QuotedEnd(s, p) == Some(e)
    ensures Matches(s, p) == [Piece(p, e)] + Matches(s, e)
  {
  }

  /** The example's last two matches, for a text known only through its characters. */
  lemma ExampleTailOf(s: string)
    requires s == ExampleInput
    ensures Matches(s, 9) == [Piece(9, 20), Piece(21, 23)]
  {
    ExampleQuotedGroup();
    assert |s| == 23 && s[9] == Quote && s[20] == ' ' && s[21] == ':';
    assert Matches(s, 23) == [];
    MatchesAtRun(s, 21);
    MatchesAtSpace(s, 20);
    MatchesAtGroup(s, 9, 20);
  }

  lemma ExampleHeadOf(s: string)
    requires s == ExampleInput
    ensures Matches(s, 0) == [Piece(0, 2)] + Matches(s, 3)
  {
    ExampleRuns();
    assert |s| == 23 && s[0] == 'h' && s[2] == ' ';
    MatchesAtSpace(s, 2);
    MatchesAtRun(s, 0);
  }

  lemma ExampleMiddleOf(s: string)
    requires s == ExampleInput
    ensures Matches(s, 3) == [Piece(3, 8)] + Matches(s, 9)
  {
    ExampleRuns();
    assert |s| == 23 && s[3] == 't' && s[8] == ' ';
    MatchesAtSpace(s, 8);
    MatchesAtRun(s, 3);
  }

  /** The example's matches, for a text known only through its characters. */
  lemma ExampleMatchesOf(s: string)
    requires s == ExampleInput
    ensures Matches(s, 0) == [Piece(0, 2), Piece(3, 8), Piece(9, 20), Piece(21, 23)]
  {
    ExampleHeadOf(s);
    ExampleMiddleOf(s);
    ExampleTailOf(s);
  }

  lemma ExampleMatches()
    ensures Matches(ExampleInput, 0) == [Piece(0, 2), Piece(3, 8), Piece(9, 20), Piece(21, 23)]
  {
    ExampleMatchesOf(ExampleInput);
  }

  /** The documented example: `hi there "mr person" :)` gives `hi`, `there`,
      `mr person` and `:)`. */
  lemma DocumentedExample()
    ensures SplitQuoted(ExampleInput) == ["hi", "there", "mr person", ":)"]
  {
    DocumentedExampleOf(ExampleInput);
  }

  lemma DocumentedExampleOf(s: string)
    requires s == ExampleInput
    ensures SplitQuoted(s) == ["hi", "there", "mr person", ":)"]
  {
    ExampleMatchesOf(s);
    ExampleSlices();
    ExamplePlainTokens();
    StripEnclosingQuotes("mr person");
    var r := SplitQuoted(s);
    assert |r| == 4;
    assert r[0] == StripQuotes("hi") && r[1] == StripQuotes("there");
    assert r[2] == StripQuotes([Quote] + "mr person" + [Quote]) && r[3] == StripQuotes(":)");
  }

  lemma ExamplePlainTokens()
    ensures StripQuotes("hi") == "hi" && StripQuotes("there") == "there" && StripQuotes(":)") == ":)"
    ensures Quote !in "mr person"
  {
    assert Quote !in "hi" && Quote !in "there" && Quote !in ":)";
  }

  lemma ExampleSlices()
    ensures ExampleInput[0..2] == "hi" && ExampleInput[3..8] == "there" && ExampleInput[21..23] == ":)"
    ensures ExampleInput[9..20] == [Quote] + "mr person" + [Quote]
  {
  }

  /** A pair of quotes with nothing between them is no quoted group; it falls
      to the non-space alternative and leaves an empty token. */
  lemma EmptyQuotesLeaveEmptyToken()
    ensures SplitQuoted("\"\"") == [""]
  {
    var s := "\"\"";
    assert CloseFrom(s, 2).None?;
    assert QuotedEnd(s, 0).None?;
    assert RunEnd(s, 0) == 2;
    assert Matches(s, 2) == [];
    assert Matches(s, 0) == [Piece(0, 2)];
    assert s[0..2] == s;
    assert StripQuotes(s[1..]) == "";
    assert StripQuotes(s) == "";
  }

  /** A quoted group is one match even across a space: `"a b"` is the single
      match `[0, 5)`, not the two runs `"a` and `b"`. */
  lemma QuotedGroupBundlesSpaces()
    ensures Matches("\"a b\"", 0) == [Piece(0, 5)]
  {
    var s := "\"a b\"";
    assert s[4] == Quote && s[2] == ' ';
    assert CloseFrom(s, 4) == Some(4);
    assert CloseFrom(s, 2) == Some(4);
    assert QuotedEnd(s, 0) == Some(5);
    assert Matches(s, 5) == [];
  }
}

=== FILE: role_timeouts.dfy ===
/** The temporary-role store (RoleTimeout.cs, Bot.EventLoop.cs): records of
    `(user, role, expiration)` kept in memory as an ordered list and mirrored
    to a text file, one `UserID RoleID Ticks` line per record. The file is a
    sequence of lines here; every mutation returns the full list of lines the
    rewrite puts in the file. Times are `DateTime` tick counts. */
module RoleTimeouts {

  import opened Wrappers
  import opened Text
  import opened Platform

  /** `DateTime.MaxValue.Ticks`. */
  const MaxTicks: int := 3155378975999999999
  const TwoTo62: int := 0x4000_0000_0000_0000
  const TwoTo63: int := 0x8000_0000_0000_0000
  const TicksPerDay: int := 864_000_000_000

  /** The local time zone's offset from UTC in ticks, which `FromBinary` adds
      to local-kind values; taken as 0 (UTC). */
  const LocalOffset: int := 0

  /** The tick count of a valid `DateTime`. */
  type Ticks = t: int | 0 <= t <= MaxTicks

  /** One temporary grant. The class has read-only fields and no equality
      override, so the store never merges two records, even equal ones. */
  datatype RoleTimeout = RoleTimeout(userId: U64, roleId: U64, expiration: Ticks)

  type Store = seq<RoleTimeout>

  // ---------------------------------------------------------------------------
  // Writing (`WriteRoleTimeouts`)
  // ---------------------------------------------------------------------------

  function FormatLine(t: RoleTimeout): string
  {
    Decimal(t.userId) + " " + Decimal(t.roleId) + " " + Decimal(t.expiration)
  }

  /** The whole file after a rewrite: one line per record, in list order. */
  function Serialize(store: Store): (lines: seq<string>)
    ensures |lines| == |store|
  {
    seq(|store|, i requires 0 <= i < |store| => FormatLine(store[i]))
  }

  lemma FormatLineFields(t: RoleTimeout)
    ensures SplitOn(FormatLine(t), ' ') == [Decimal(t.userId), Decimal(t.roleId), Decimal(t.expiration)]
  {
    var fields := [Decimal(t.userId), Decimal(t.roleId), Decimal(t.expiration)];
    assert JoinWith(fields[2..], ' ') == Decimal(t.expiration);
    assert JoinWith(fields[1..], ' ') == Decimal(t.roleId) + " " + Decimal(t.expiration);
    assert JoinWith(fields, ' ') == FormatLine(t);
    SplitJoin(fields, ' ');
  }

  /** Every line of the file holds exactly three single-space-separated decimal
      fields, the user id, the role id and the tick count of the record at the
      same position. */
  lemma SerializeLayout(store: Store)
    ensures |Serialize(store)| == |store|
    ensures forall i :: 0 <= i < |store| ==>
      SplitOn(Serialize(store)[i], ' ') == [Decimal(store[i].userId), Decimal(store[i].roleId), Decimal(store[i].expiration)]
  {
    forall i | 0 <= i < |store|
      ensures SplitOn(Serialize(store)[i], ' ') == [Decimal(store[i].userId), Decimal(store[i].roleId), Decimal(store[i].expiration)]
    {
      FormatLineFields(store[i]);
    }
  }

  // ---------------------------------------------------------------------------
  // Reading (`ReadTimeoutFile`, `CreateTimeoutFileIfMissing`)
  // ---------------------------------------------------------------------------

  /** Why a line stops the whole read: `tokens[1]` or `tokens[2]` out of range,
      or `DateTime.FromBinary` rejecting the tick field. */
  datatype LineError = TooFewFields | TicksOutOfRange

  /** The read aborts at the first bad line; the exception is rethrown and start-up fails. */
  datatype LoadFailure = LoadFailure(line: nat, error: LineError)

  /** `ulong.TryParse(field, out v)`: an unparsable or out-of-range field reads as 0. */
  function FieldU64(field: string): (v: U64)
    ensures !IntegerSyntax(field) ==> v == 0
    ensures IntegerSyntax(field) && 0 <= ParseInteger(field).value < TwoTo64 ==> v == ParseInteger(field).value
    ensures IntegerSyntax(field) && ParseInteger(field).value < 0 ==> v == 0
    ensures v != 0 ==> ParseInteger(field) == Some(v)
  {
    match TryParseInRange(field, 0, TwoTo64)
    case Some(v) => v
    case None => 0
  }

  /** `long.TryParse(field, out v)`: an unparsable or out-of-range field reads as 0. */
  function FieldI64(field: string): (v: int)
    ensures -TwoTo63 <= v < TwoTo63
    ensures !IntegerSyntax(field) ==> v == 0
    ensures IntegerSyntax(field) && -TwoTo63 <= ParseInteger(field).value < TwoTo63 ==> v == ParseInteger(field).value
    ensures v != 0 ==> ParseInteger(field) == Some(v)
  {
    match TryParseInRange(field, -TwoTo63, TwoTo63)
    case Some(v) => v
    case None => 0
  }

  /** `DateTime.FromBinary(bits)`. The low 62 bits are the tick count. A
      non-negative value (UTC or unspecified kind) is taken as it is. A
      negative value has the local-kind bit set: tick counts in the last day
      below 2^62 wrap round by -2^62, the local offset is added, and a count
      still below zero moves forward one day. The conversion fails when the
      result exceeds `MaxTicks`. */
  function FromBinary(bits: int): (r: Option<Ticks>)
    ensures 0 <= bits <= MaxTicks ==> r == Some(bits)
    ensures bits >= 0 ==> (r.None? <==> bits % TwoTo62 > MaxTicks)
    ensures bits >= 0 && r.Some? ==> (r.value - bits) % TwoTo62 == 0
    ensures bits < 0 && bits % TwoTo62 <= TwoTo62 - TicksPerDay ==>
      (r.None? <==> bits % TwoTo62 > MaxTicks) && (r.Some? ==> (r.value - bits) % TwoTo62 == 0)
    ensures bits < 0 && bits % TwoTo62 > TwoTo62 - TicksPerDay ==>
      r.Some? && r.value < TicksPerDay && (r.value - bits) % TwoTo62 == TicksPerDay % TwoTo62
  {
    var ticks := bits % TwoTo62;
    if bits >= 0 then
      if ticks <= MaxTicks then Some(ticks) else None
    else
      var utc := if ticks > TwoTo62 - TicksPerDay then ticks - TwoTo62 else ticks;
      var local := utc + LocalOffset;
      var wrapped := if local < 0 then local + TicksPerDay else local;
      if 0 <= wrapped <= MaxTicks then Some(wrapped) else None
  }

  /** A negative tick field just below zero loads as a time on the first day,
      one day later: `-1` is 23:59:59.9999999 on 1 January of year 1. */
  lemma NegativeTicksWrapToFirstDay(v: int)
    requires -TicksPerDay < v < 0
    ensures FromBinary(v) == Some(v + TicksPerDay)
  {
  }

  /** The line `1 2 -1` loads as a record expiring on the first day. */
  lemma MinusOneTickLineLoads(line: string)
    requires line == "1 2 -1"
    ensures ParseLine(line) == Ok(RoleTimeout(1, 2, TicksPerDay - 1))
  {
    var fields := ["1", "2", "-1"];
    assert JoinWith(fields, ' ') == line;
    SplitJoin(fields, ' ');
    assert AllDigits("1") && AllDigits("2");
    assert DigitsValue("1") == 1 && DigitsValue("2") == 2 && DigitsValue("-1"[1..]) == 1;
    NegativeTicksWrapToFirstDay(-1);
  }

  /** The printed form of an id or a tick count reads back as the same number. */
  lemma FieldsReadDecimal(n: nat)
    ensures n < TwoTo64 ==> FieldU64(Decimal(n)) == n
    ensures n < TwoTo63 ==> FieldI64(Decimal(n)) == n
  {
    ParseDecimal(n);
  }

  /** One line of the file: split on single spaces (empty fields kept), fields
      beyond the third ignored. */
  function ParseLine(line: string): (r: Result<RoleTimeout, LineError>)
    ensures r == Err(TooFewFields) <==> |SplitOn(line, ' ')| < 3
    ensures r == Err(TicksOutOfRange) <==>
      |SplitOn(line, ' ')| >= 3 && FromBinary(FieldI64(SplitOn(line, ' ')[2])).None?
    ensures r.Ok? ==> var fields := SplitOn(line, ' ');
      r.value.userId == FieldU64(fields[0]) && r.value.roleId == FieldU64(fields[1])
      && Some(r.value.expiration) == FromBinary(FieldI64(fields[2]))
  {
    var fields := SplitOn(line, ' ');
    if |fields| < 3 then Err(TooFewFields)
    else match FromBinary(FieldI64(fields[2]))
      case None => Err(TicksOutOfRange)
      case Some(expiration) => Ok(RoleTimeout(FieldU64(fields[0]), FieldU64(fields[1]), expiration))
  }

  /** A numeric field that does not parse is read as 0 instead of failing the
      read; an unreadable tick count makes the record expire at `DateTime.MinValue`. */
  lemma UnparsableFieldsReadAsZero(line: string)
    requires |SplitOn(line, ' ')| >= 3
    ensures var fields := SplitOn(line, ' ');
      TryParseInRange(fields[0], 0, TwoTo64).None? && ParseLine(line).Ok? ==> ParseLine(line).value.userId == 0
    ensures var fields := SplitOn(line, ' ');
      TryParseInRange(fields[1], 0, TwoTo64).None? && ParseLine(line).Ok? ==> ParseLine(line).value.roleId == 0
    ensures var fields := SplitOn(line, ' ');
      TryParseInRange(fields[2], -TwoTo63, TwoTo63).None? ==> ParseLine(line).Ok? && ParseLine(line).value.expiration == 0
  {
  }

  /** Every record survives being written as a line and read back. */
  lemma ParseFormatLine(t: RoleTimeout)
    ensures ParseLine(FormatLine(t)) == Ok(t)
  {
    FormatLineFields(t);
    ParseDecimal(t.userId);
    ParseDecimal(t.roleId);
    ParseDecimal(t.expiration);
  }

  /** `ReadTimeoutFile` on the file's lines. The list is cleared first, so the
      result depends on the lines alone; a bad line fails the whole read. */
  function Load(lines: seq<string>): (r: Result<Store, LoadFailure>)
    ensures r.Ok? <==> forall i :: 0 <= i < |lines| ==> ParseLine(lines[i]).Ok?
    ensures r.Ok? ==> |r.value| == |lines|
    ensures r.Ok? ==> forall i :: 0 <= i < |lines| ==> ParseLine(lines[i]) == Ok(r.value[i])
    ensures r.Err? ==> r.error.line < |lines| && ParseLine(lines[r.error.line]) == Err(r.error.error)
    ensures r.Err? ==> forall i :: 0 <= i < r.error.line ==> ParseLine(lines[i]).Ok?
    decreases |lines|
  {
    if |lines| == 0 then Ok([])
    else match ParseLine(lines[0])
      case Err(e) => Err(LoadFailure(0, e))
      case Ok(t) =>
        var tail := Load(lines[1..]);
        assert forall i :: 1 <= i < |lines| ==> lines[1..][i - 1] == lines[i];
        match tail
        case Err(f) => Err(LoadFailure(f.line + 1, f.error))
        case Ok(rest) => Ok([t] + rest)
  }

  /** Round trip: reading back a rewritten file restores the list exactly,
      same records in the same order, for every list including the empty one. */
  lemma LoadSerialize(store: Store)
    ensures Load(Serialize(store)) == Ok(store)
  {
    var lines := Serialize(store);
    forall i | 0 <= i < |lines|
      ensures ParseLine(lines[i]) == Ok(store[i])
    {
      assert lines[i] == FormatLine(store[i]);
      ParseFormatLine(store[i]);
    }
    var r := Load(lines);
    assert r.Ok?;
    assert |r.value| == |store|;
    forall i | 0 <= i < |store|
      ensures r.value[i] == store[i]
    {
      assert ParseLine(lines[i]) == Ok(r.value[i]);
    }
    assert r.value == store;
  }

  /** Start-up: a missing file is created empty, then read. */
  function LoadAtStartup(file: Option<seq<string>>): (r: Result<Store, LoadFailure>)
    ensures file.None? ==> r == Ok([])
    ensures r.Ok? <==> file.None? || forall i :: 0 <= i < |file.value| ==> ParseLine(file.value[i]).Ok?
    ensures r.Ok? && file.Some? ==> |r.value| == |file.value|
  {
    match file
    case None => Load([])
    case Some(lines) => Load(lines)
  }

  /** A missing file is not an error: start-up proceeds with no records. */
  lemma MissingFileLoadsEmpty()
    ensures LoadAtStartup(None) == Ok([])
    ensures LoadAtStartup(None) == LoadAtStartup(Some([]))
  {
  }

  // ---------------------------------------------------------------------------
  // Mutations, each followed by a full rewrite
  // ---------------------------------------------------------------------------

  /** A new list together with the complete file contents written after it changed. */
  datatype Persisted = Persisted(store: Store, file: seq<string>)

  /** `AddRoleTimeout`: append, then rewrite the whole file. */
  function AddRoleTimeout(store: Store, userId: U64, roleId: U64, expiration: Ticks): (p: Persisted)
    ensures |p.store| == |store| + 1
    ensures p.store[..|store|] == store
    ensures p.store[|store|] == RoleTimeout(userId, roleId, expiration)
    ensures Load(p.file) == Ok(p.store)
  {
    var store' := store + [RoleTimeout(userId, roleId, expiration)];
    LoadSerialize(store');
    Persisted(store', Serialize(store'))
  }

  /** Appending a record equal to one already present adds a second entry. */
  lemma AddNeverDeduplicates(store: Store, t: RoleTimeout)
    requires t in store
    ensures multiset(AddRoleTimeout(store, t.userId, t.roleId, t.expiration).store)[t] == multiset(store)[t] + 1
  {
    var p := AddRoleTimeout(store, t.userId, t.roleId, t.expiration);
    assert p.store == store + [t];
  }

  // ---------------------------------------------------------------------------
  // Sweep (`CheckRollTimeouts`)
  // ---------------------------------------------------------------------------

  /** A record is due once its expiration lies strictly before `now`. */
  predicate Expired(t: RoleTimeout, now: int)
  {
    t.expiration < now
  }

  function Unexpired(store: Store, now: int): (kept: Store)
    ensures forall t :: t in kept <==> t in store && !Expired(t, now)
    decreases |store|
  {
    if |store| == 0 then []
    else if Expired(store[0], now) then Unexpired(store[1..], now)
    else [store[0]] + Unexpired(store[1..], now)
  }

  function ExpiredOf(store: Store, now: int): (due: Store)
    ensures forall t :: t in due <==> t in store && Expired(t, now)
    decreases |store|
  {
    if |store| == 0 then []
    else if Expired(store[0], now) then [store[0]] + ExpiredOf(store[1..], now)
    else ExpiredOf(store[1..], now)
  }

  lemma {:induction false} PartitionCounts(store: Store, now: int)
    ensures multiset(Unexpired(store, now)) + multiset(ExpiredOf(store, now)) == multiset(store)
    decreases |store|
  {
    if |store| > 0 {
      PartitionCounts(store[1..], now);
      assert store == [store[0]] + store[1..];
    }
  }

  /** The removal the platform is asked to make for one expired record. */
  datatype Revoke = Revoke(userId: U64, roleId: U64)

  predicate Resolvable(guild: Guild, t: RoleTimeout)
  {
    GetUser(guild, t.userId).Some? && GetRole(guild, t.roleId).Some?
  }

  /** `Resolvable` in `guild`, as a test on records. */
  function ResolvableIn(guild: Guild): RoleTimeout -> bool
  {
    (t: RoleTimeout) => Resolvable(guild, t)
  }

  /** One revoke per record that `p` accepts, in list order. */
  function RevokesWhere(due: Store, p: RoleTimeout -> bool): (rs: seq<Revoke>)
    ensures |rs| <= |due|
    ensures forall t :: t in due && p(t) ==> Revoke(t.userId, t.roleId) in rs
    decreases |due|
  {
    if |due| == 0 then []
    else
      var rest := RevokesWhere(due[1..], p);
      assert forall t :: t in due[1..] ==> t in due;
      (if p(due[0]) then [Revoke(due[0].userId, due[0].roleId)] else []) + rest
  }

  /** The `RemoveRoleAsync` calls: one per due record whose user and role can
      still be found, in list order; the others are only logged. */
  function Revocations(due: Store, guild: Guild): (rs: seq<Revoke>)
    ensures |rs| <= |due|
    ensures forall t :: t in due && Resolvable(guild, t) ==> Revoke(t.userId, t.roleId) in rs
  {
    RevokesWhere(due, ResolvableIn(guild))
  }

  /** One record gives one revoke call when its user and role resolve, none otherwise. */
  lemma RevocationsOfOne(t: RoleTimeout, guild: Guild)
    ensures Revocations([t], guild) == if Resolvable(guild, t) then [Revoke(t.userId, t.roleId)] else []
  {
    assert [t][1..] == [];
  }

  /** The record behind the `k`-th call: an accepted record of the list. */
  lemma {:induction false} RevokeSource(due: Store, p: RoleTimeout -> bool, k: nat) returns (i: nat)
    requires k < |RevokesWhere(due, p)|
    ensures i < |due| && p(due[i]) && RevokesWhere(due, p)[k] == Revoke(due[i].userId, due[i].roleId)
    decreases |due|
  {
    var rest := RevokesWhere(due[1..], p);
    var head := if p(due[0]) then [Revoke(due[0].userId, due[0].roleId)] else [];
    assert RevokesWhere(due, p) == head + rest;
    if k < |head| {
      i := 0;
    } else {
      var j := RevokeSource(due[1..], p, k - |head|);
      assert due[1..][j] == due[j + 1];
      i := j + 1;
    }
  }

  /** `r` is the revoke call for some record of `due` that resolves in `guild`. */
  predicate IssuedFor(due: Store, guild: Guild, r: Revoke)
  {
    exists t :: t in due && Resolvable(guild, t) && r == Revoke(t.userId, t.roleId)
  }

  /** Every revoke call comes from a due record whose user and role resolve. */
  lemma RevokesComeFromDue(due: Store, guild: Guild)
    ensures forall r :: r in Revocations(due, guild) ==> IssuedFor(due, guild, r)
  {
    var p := ResolvableIn(guild);
    var rs := RevokesWhere(due, p);
    assert Revocations(due, guild) == rs;
    forall r | r in rs
      ensures IssuedFor(due, guild, r)
    {
      var k :| 0 <= k < |rs| && rs[k] == r;
      var i := RevokeSource(due, p, k);
      var t := due[i];
      assert t in due && Resolvable(guild, t) && r == Revoke(t.userId, t.roleId);
    }
  }

  lemma {:induction false} RevokesWhereAppend(a: Store, b: Store, p: RoleTimeout -> bool)
    ensures RevokesWhere(a + b, p) == RevokesWhere(a, p) + RevokesWhere(b, p)
    decreases |a|
  {
    if |a| == 0 {
      assert a + b == b;
    } else {
      RevokesWhereAppend(a[1..], b, p);
      assert (a + b)[1..] == a[1..] + b;
      assert (a + b)[0] == a[0];
      var head := if p(a[0]) then [Revoke(a[0].userId, a[0].roleId)] else [];
      assert head + (RevokesWhere(a[1..], p) + RevokesWhere(b, p))
          == (head + RevokesWhere(a[1..], p)) + RevokesWhere(b, p);
    }
  }

  /** The calls follow the list: revoking two runs of records is revoking the
      first run, then the second. */
  lemma RevocationsAppend(a: Store, b: Store, guild: Guild)
    ensures Revocations(a + b, guild) == Revocations(a, guild) + Revocations(b, guild)
  {
    RevokesWhereAppend(a, b, ResolvableIn(guild));
  }

  /** The outcome of one pass: the list kept, the records dropped, the revoke
      calls issued, and the file written (`None` when no rewrite happens). */
  datatype SweepResult = SweepResult(store: Store, removed: Store, revokes: seq<Revoke>, file: Option<seq<string>>)

  /** `CheckRollTimeouts` with one fixed `now`: every due record is dropped,
      whether or not its revoke call can be made; the file is rewritten only
      when something was dropped. */
  function Sweep(store: Store, now: int, guild: Guild): (r: SweepResult)
    ensures forall t :: t in r.store <==> t in store && !Expired(t, now)
    ensures forall t :: t in r.removed <==> t in store && Expired(t, now)
    ensures multiset(r.store) + multiset(r.removed) == multiset(store)
    ensures r.file.None? <==> r.removed == []
    ensures r.file.Some? ==> Load(r.file.value) == Ok(r.store)
    ensures r.file.None? ==> r.store == store && r.revokes == []
    ensures r.revokes == Revocations(r.removed, guild)
  {
    var kept := Unexpired(store, now);
    var due := ExpiredOf(store, now);
    PartitionCounts(store, now);
    if due != [] then
      LoadSerialize(kept);
      SweepResult(kept, due, Revocations(due, guild), Some(Serialize(kept)))
    else
      NothingDueKeepsAll(store, now);
      SweepResult(kept, due, [], None)
  }

  /** A pass that may hit a failing `RemoveRoleAsync`: the call `.Wait()`s on it
      and nothing catches the exception, so the pass leaves the list and the
      file untouched and the sweep thread ends. */
  datatype Pass = Pass(store: Store, file: Option<seq<string>>, revokes: seq<Revoke>, threadEnds: bool)

  /** The calls of one pass, in order, up to and including the first that
      fails; `failed` tells whether one did. */
  function CallsUntilFailure(planned: seq<Revoke>, failing: set<Revoke>): (r: (seq<Revoke>, bool))
    ensures r.1 <==> exists k :: 0 <= k < |planned| && planned[k] in failing
    ensures !r.1 ==> r.0 == planned
    ensures r.1 ==>
      1 <= |r.0| <= |planned| && r.0 == planned[..|r.0|] && r.0[|r.0| - 1] in failing
      && forall k :: 0 <= k < |r.0| - 1 ==> r.0[k] !in failing
    decreases |planned|
  {
    if |planned| == 0 then ([], false)
    else if planned[0] in failing then ([planned[0]], true)
    else
      var rest := CallsUntilFailure(planned[1..], failing);
      assert rest.1 ==> [planned[0]] + rest.0 == planned[..|rest.0| + 1];
      ([planned[0]] + rest.0, rest.1)
  }

  /** `CheckRollTimeouts` when the platform rejects the revokes in `failing`:
      the calls are issued in list order up to and including the first that
      fails; then the pass stops before `RemoveAll` and the rewrite. */
  function SweepWithFailures(store: Store, now: int, guild: Guild, failing: set<Revoke>): (r: Pass)
    ensures var planned := Sweep(store, now, guild).revokes;
      r.threadEnds <==> exists k :: 0 <= k < |planned| && planned[k] in failing
    ensures var full := Sweep(store, now, guild);
      !r.threadEnds ==> r == Pass(full.store, full.file, full.revokes, false)
    ensures var planned := Sweep(store, now, guild).revokes;
      r.threadEnds ==>
        r.store == store && r.file.None?
        && 1 <= |r.revokes| <= |planned| && r.revokes == planned[..|r.revokes|]
        && r.revokes[|r.revokes| - 1] in failing
        && forall k :: 0 <= k < |r.revokes| - 1 ==> r.revokes[k] !in failing
  {
    var full := Sweep(store, now, guild);
    var calls := CallsUntilFailure(full.revokes, failing);
    if calls.1 then Pass(store, None, calls.0, true)
    else Pass(full.store, full.file, full.revokes, false)
  }

  /** When every call succeeds the pass is the plain sweep. */
  lemma NoFailureIsSweep(store: Store, now: int, guild: Guild)
    ensures var full := Sweep(store, now, guild);
      SweepWithFailures(store, now, guild, {}) == Pass(full.store, full.file, full.revokes, false)
  {
  }

  /** An aborted pass drops nothing: every record that was due is still in the
      list, and still due. */
  lemma AbortedPassKeepsDueRecords(store: Store, now: int, guild: Guild, failing: set<Revoke>)
    requires SweepWithFailures(store, now, guild, failing).threadEnds
    ensures var r := SweepWithFailures(store, now, guild, failing);
      ExpiredOf(r.store, now) == ExpiredOf(store, now) != []
  {
  }

  /** The file is rewritten exactly when some record is due. */
  lemma SweepRewritesIffSomethingDue(store: Store, now: int, guild: Guild)
    ensures Sweep(store, now, guild).file.Some? <==> exists t :: t in store && Expired(t, now)
  {
    var r := Sweep(store, now, guild);
    if r.file.Some? {
      assert r.removed[0] in r.removed;
    }
  }

  lemma {:induction false} NothingDueKeepsAll(store: Store, now: int)
    requires forall t :: t in store ==> !Expired(t, now)
    ensures Unexpired(store, now) == store
    decreases |store|
  {
    if |store| > 0 {
      NothingDueKeepsAll(store[1..], now);
      assert store == [store[0]] + store[1..];
    }
  }

  lemma {:induction false} UnexpiredAppend(a: Store, b: Store, now: int)
    ensures Unexpired(a + b, now) == Unexpired(a, now) + Unexpired(b, now)
    decreases |a|
  {
    if |a| == 0 {
      assert a + b == b;
    } else {
      UnexpiredAppend(a[1..], b, now);
      assert (a + b)[1..] == a[1..] + b;
      assert (a + b)[0] == a[0];
      if !Expired(a[0], now) {
        assert [a[0]] + (Unexpired(a[1..], now) + Unexpired(b, now))
            == ([a[0]] + Unexpired(a[1..], now)) + Unexpired(b, now);
      }
    }
  }

  lemma {:induction false} ExpiredAppend(a: Store, b: Store, now: int)
    ensures ExpiredOf(a + b, now) == ExpiredOf(a, now) + ExpiredOf(b, now)
    decreases |a|
  {
    if |a| == 0 {
      assert a + b == b;
    } else {
      ExpiredAppend(a[1..], b, now);
      assert (a + b)[1..] == a[1..] + b;
      assert (a + b)[0] == a[0];
      if Expired(a[0], now) {
        assert [a[0]] + (ExpiredOf(a[1..], now) + ExpiredOf(b, now))
            == ([a[0]] + ExpiredOf(a[1..], now)) + ExpiredOf(b, now);
      }
    }
  }

  /** The sweep keeps relative order: sweeping a list split in two is sweeping
      each part and concatenating, for the kept records and the dropped ones. */
  lemma SweepKeepsOrder(a: Store, b: Store, now: int, guild: Guild)
    ensures Sweep(a + b, now, guild).store == Sweep(a, now, guild).store + Sweep(b, now, guild).store
    ensures Sweep(a + b, now, guild).removed == Sweep(a, now, guild).removed + Sweep(b, now, guild).removed
  {
    UnexpiredAppend(a, b, now);
    ExpiredAppend(a, b, now);
  }

  /** A failed user or role lookup only skips the revoke call: what the store
      keeps does not depend on the guild at all. */
  lemma SweepStoreIgnoresGuild(store: Store, now: int, g1: Guild, g2: Guild)
    ensures Sweep(store, now, g1).store == Sweep(store, now, g2).store
    ensures Sweep(store, now, g1).file == Sweep(store, now, g2).file
  {
  }

  /** A second sweep at the same `now` finds nothing due and writes nothing. */
  lemma SweepIdempotent(store: Store, now: int, g1: Guild, g2: Guild)
    ensures var once := Sweep(store, now, g1);
      Sweep(once.store, now, g2) == SweepResult(once.store, [], [], None)
  {
    var once := Sweep(store, now, g1);
    NothingDueGivesNone(once.store, now);
  }

  /** A grant recorded while nothing else is due, swept once it is due, is the
      only record dropped, and its user and role get exactly one revoke call. */
  lemma AddThenSweep(store: Store, userId: U64, roleId: U64, expiration: Ticks, now: int, guild: Guild)
    requires forall t :: t in store ==> !Expired(t, now)
    requires expiration < now
    requires GetUser(guild, userId).Some? && GetRole(guild, roleId).Some?
    ensures var added := AddRoleTimeout(store, userId, roleId, expiration);
      var swept := Sweep(added.store, now, guild);
      swept.store == store && swept.removed == [RoleTimeout(userId, roleId, expiration)]
      && swept.revokes == [Revoke(userId, roleId)] && swept.file == Some(Serialize(store))
  {
    var t := RoleTimeout(userId, roleId, expiration);
    var added := AddRoleTimeout(store, userId, roleId, expiration);
    assert added.store == store + [t];
    UnexpiredAppend(store, [t], now);
    ExpiredAppend(store, [t], now);
    NothingDueKeepsAll(store, now);
    NothingDueGivesNone(store, now);
    assert [t][1..] == [];
    assert ExpiredOf([t], now) == [t];
    assert Unexpired([t], now) == [];
    assert Revocations([t], guild) == [Revoke(userId, roleId)];
  }

  lemma {:induction false} NothingDueGivesNone(store: Store, now: int)
    requires forall t :: t in store ==> !Expired(t, now)
    ensures ExpiredOf(store, now) == []
    decreases |store|
  {
    if |store| > 0 {
      NothingDueGivesNone(store[1..], now);
    }
  }
}

=== FILE: roles.dfy ===
/** Member lookup, the role-change audit and the temporary grant (Bot.Roles.cs). */
module Roles {

  import opened Wrappers
  import opened Text
  import opened Numbers
  import opened Seqs
  import opened Platform

  // ---------------------------------------------------------------------------
  // FindUserByDisplayNameOrUsername
  // ---------------------------------------------------------------------------

  predicate NicknameMatches(m: Member, name: string)
  {
    m.nickname.Some? && SameIgnoringCase(m.nickname.value, name)
  }

  predicate UsernameMatches(m: Member, name: string)
  {
    SameIgnoringCase(m.username, name)
  }

  /** Two passes over the members: the first whose nickname matches `name`
      ignoring case, otherwise the first whose username does, otherwise null. */
  function FindUserByDisplayNameOrUsername(members: seq<Member>, name: string): (r: Option<Member>)
    ensures r.Some? ==> r.value in members
    ensures r.Some? ==> NicknameMatches(r.value, name) || UsernameMatches(r.value, name)
    ensures (exists i :: 0 <= i < |members| && NicknameMatches(members[i], name)) ==>
      r.Some? && NicknameMatches(r.value, name)
      && exists i :: 0 <= i < |members| && members[i] == r.value
           && forall j :: 0 <= j < i ==> !NicknameMatches(members[j], name)
    ensures (forall i :: 0 <= i < |members| ==> !NicknameMatches(members[i], name)) && r.Some? ==>
      UsernameMatches(r.value, name)
      && exists i :: 0 <= i < |members| && members[i] == r.value
           && forall j :: 0 <= j < i ==> !UsernameMatches(members[j], name)
    ensures r.None? <==> forall i :: 0 <= i < |members| ==>
      !NicknameMatches(members[i], name) && !UsernameMatches(members[i], name)
  {
    match FirstIndex(members, (m: Member) => NicknameMatches(m, name))
    case Some(i) => Some(members[i])
    case None =>
      match FirstIndex(members, (m: Member) => UsernameMatches(m, name))
      case Some(i) => Some(members[i])
      case None => None
  }

  /** A later nickname match beats an earlier username match. */
  lemma NicknamePassComesFirst(members: seq<Member>, name: string, i: nat, j: nat)
    requires i < j < |members|
    requires UsernameMatches(members[i], name) && !NicknameMatches(members[i], name)
    requires NicknameMatches(members[j], name)
    ensures FindUserByDisplayNameOrUsername(members, name).Some?
    ensures FindUserByDisplayNameOrUsername(members, name).value != members[i]
  {
  }

  // ---------------------------------------------------------------------------
  // PrintRoleUpdates
  // ---------------------------------------------------------------------------

  /** The role ids reported as lost and as gained when a member is updated. */
  datatype RoleChanges = RoleChanges(lost: set<U64>, gained: set<U64>)

  /** `PrintRoleUpdates`: nothing when the member holds as many roles as
      before; otherwise the set differences each way, minus the join roles. */
  function RoleUpdates(before: set<U64>, after: set<U64>): (d: RoleChanges)
    ensures |before| == |after| ==> d.lost == {} && d.gained == {}
    ensures d.lost <= before && d.lost !! after && d.lost !! JoinRoleIds
    ensures d.gained <= after && d.gained !! before && d.gained !! JoinRoleIds
  {
    if |before| == |after| then RoleChanges({}, {})
    else RoleChanges(before - after - JoinRoleIds, after - before - JoinRoleIds)
  }

  /** When the counts differ the report is complete outside the join roles:
      replaying it on the old role set gives the new one. */
  lemma RoleUpdatesExplainChange(before: set<U64>, after: set<U64>)
    requires |before| != |after|
    ensures var d := RoleUpdates(before, after);
      (before - d.lost + d.gained) - JoinRoleIds == after - JoinRoleIds
  {
  }

  /** Swapping one audited role for another keeps the count and goes unreported. */
  lemma SwapGoesUnreported(before: set<U64>, x: U64, y: U64)
    requires x in before && y !in before
    requires x !in JoinRoleIds && y !in JoinRoleIds
    ensures var after := before - {x} + {y};
      after - JoinRoleIds != before - JoinRoleIds
      && RoleUpdates(before, after) == RoleChanges({}, {})
  {
    var after := before - {x} + {y};
    assert |before - {x}| == |before| - 1;
    assert y !in before - {x};
    assert |after| == |before - {x}| + 1;
    assert y in after - JoinRoleIds && y !in before - JoinRoleIds;
  }

  // ---------------------------------------------------------------------------
  // GiveTemporaryRole: duration
  // ---------------------------------------------------------------------------

  datatype TimeUnit = Minutes | Hours | Days

  const MinuteWords: set<string> := {"MIN", "MINS", "MINUTE", "MINUTES"}
  const HourWords: set<string> := {"HR", "HRS", "HOUR", "HOURS"}
  const DayWords: set<string> := {"DAY", "DAYS"}

  /** The `switch` on `tokens[4].ToUpper()`. */
  function ParseUnit(token: string): (u: Option<TimeUnit>)
    ensures u == Some(Minutes) <==> Upper(token) in MinuteWords
    ensures u == Some(Hours) <==> Upper(token) in HourWords
    ensures u == Some(Days) <==> Upper(token) in DayWords
    ensures u.Some? ==> 2 <= |token| <= 7
  {
    var t := Upper(token);
    if t == "MIN" || t == "MINS" || t == "MINUTE" || t == "MINUTES" then Some(Minutes)
    else if t == "HR" || t == "HRS" || t == "HOUR" || t == "HOURS" then Some(Hours)
    else if t == "DAY" || t == "DAYS" then Some(Days)
    else None
  }

  /** The accepted spellings, in any mix of letter cases. */
  lemma UnitSpellings()
    ensures ParseUnit("Mins") == Some(Minutes) && ParseUnit("minute") == Some(Minutes)
    ensures ParseUnit("hR") == Some(Hours) && ParseUnit("HOURS") == Some(Hours)
    ensures ParseUnit("day") == Some(Days) && ParseUnit("Days") == Some(Days)
    ensures ParseUnit("m") == None && ParseUnit("week") == None && ParseUnit("h") == None
  {
    MinuteSpellings();
    HourSpellings();
    DaySpellings();
    OtherSpellings();
  }

  lemma MinuteSpellings()
    ensures ParseUnit("Mins") == Some(Minutes) && ParseUnit("minute") == Some(Minutes)
  {
    assert Upper("Mins") == "MINS";
    assert Upper("minute") == "MINUTE";
  }

  lemma HourSpellings()
    ensures ParseUnit("hR") == Some(Hours) && ParseUnit("HOURS") == Some(Hours)
  {
    assert Upper("hR") == "HR";
    assert Upper("HOURS") == "HOURS";
  }

  lemma DaySpellings()
    ensures ParseUnit("day") == Some(Days) && ParseUnit("Days") == Some(Days)
  {
    assert Upper("day") == "DAY";
    assert Upper("Days") == "DAYS";
  }

  lemma OtherSpellings()
    ensures ParseUnit("m") == None && ParseUnit("week") == None && ParseUnit("h") == None
  {
    assert Upper("m") == "M";
    assert Upper("week") == "WEEK";
    assert Upper("h") == "H";
  }

  function UnitMillis(u: TimeUnit): (ms: nat)
  {
    match u
    case Minutes => 1000 * 60
    case Hours => 1000 * 60 * 60
    case Days => 1000 * 60 * 60 * 24
  }

  /** The largest amount whose delay in milliseconds still fits an `int`. */
  function MaxAmount(u: TimeUnit): nat
  {
    match u
    case Minutes => 35791
    case Hours => 596
    case Days => 24
  }

  /** The delay, in milliseconds, that `amount` units describe. */
  function DelayMillis(amount: int, u: TimeUnit): (ms: int)
    ensures amount > 0 ==> ms >= 60000
    ensures u == Minutes ==> ms == amount * 60000
    ensures u == Hours ==> ms == amount * 60 * 60000
    ensures u == Days ==> ms == amount * 24 * 60 * 60000
  {
    amount * UnitMillis(u)
  }

  /** The delay as the code computes it: the product is an unchecked `int`
      expression, so it wraps modulo 2^32. */
  function DelayMillisAsWritten(amount: int, u: TimeUnit): (ms: int)
    ensures IsInt32(ms)
    ensures (ms - DelayMillis(amount, u)) % TwoTo32 == 0
  {
    Wrap32(amount * UnitMillis(u))
  }

  /** For every positive `int` amount, the 32-bit product equals the intended
      delay exactly when the amount is at most 35791 minutes, 596 hours or 24 days. */
  lemma AsWrittenDelayFitsIff(amount: int, u: TimeUnit)
    requires 0 < amount < TwoTo31
    ensures DelayMillisAsWritten(amount, u) == DelayMillis(amount, u) <==> amount <= MaxAmount(u)
  {
    var exact := amount * UnitMillis(u);
    if amount <= MaxAmount(u) {
      assert exact <= MaxAmount(u) * UnitMillis(u);
      assert IsInt32(exact);
    } else {
      assert exact >= (MaxAmount(u) + 1) * UnitMillis(u);
      assert !IsInt32(exact);
    }
  }

  /** `.giveRole someone shush 25 days` asks for a negative delay. */
  lemma TwentyFiveDaysWrapsNegative()
    ensures DelayMillis(25, Days) == 2160000000
    ensures DelayMillisAsWritten(25, Days) == -2134967296
  {
  }

  // ---------------------------------------------------------------------------
  // GiveTemporaryRole: validation
  // ---------------------------------------------------------------------------

  /** The one role name the command accepts. */
  const TemporaryRoleName: string := "shush"

  datatype GrantRejection =
    | WrongArgumentCount
    | UnknownUser(name: string)
    | RoleNotAllowed
    | UnknownRole(name: string)
    | BadAmount
    | UnknownTimeUnit

  /** A rejection is one direct message back to the caller and no other effect;
      a grant is `AddRoleAsync(role)` followed by a removal after `delayMillis`. */
  datatype GrantOutcome =
    | Rejected(reason: GrantRejection)
    | Granted(userId: U64, roleId: U64, delayMillis: int)

  /** `int.TryParse(tokens[3], out amount) && amount > 0`. */
  function ParseAmount(token: string): (r: Option<int>)
    ensures r.Some? ==> 0 < r.value < TwoTo31 && ParseInteger(token) == Some(r.value)
    ensures ParseInteger(token).Some? && 0 < ParseInteger(token).value < TwoTo31 ==> r == ParseInteger(token)
  {
    match TryParseInRange(token, -TwoTo31, TwoTo31)
    case Some(n) => if n > 0 then Some(n) else None
    case None => None
  }

  /** `GiveTemporaryRole(tokens, msg)` on `.giveRole <name> <role> <amount> <unit>`:
      checks in a fixed order, the first failure wins. */
  function GiveTemporaryRole(tokens: seq<string>, guild: Guild): (r: GrantOutcome)
    ensures r == Rejected(WrongArgumentCount) <==> |tokens| < 5
    ensures r.Rejected? && r.reason.UnknownUser? ==>
      |tokens| >= 5 && r.reason.name == tokens[1]
      && FindUserByDisplayNameOrUsername(guild.members, tokens[1]).None?
    ensures r == Rejected(RoleNotAllowed) ==>
      |tokens| >= 5 && FindUserByDisplayNameOrUsername(guild.members, tokens[1]).Some?
      && Lower(tokens[2]) != TemporaryRoleName
    ensures r.Rejected? && r.reason.UnknownRole? ==>
      |tokens| >= 5 && FindUserByDisplayNameOrUsername(guild.members, tokens[1]).Some?
      && Lower(tokens[2]) == TemporaryRoleName && FindRoleFromName(guild.roles, TemporaryRoleName).None?
    ensures r.Rejected? && r.reason.UnknownRole? ==> r.reason.name == Lower(tokens[2])
    ensures r == Rejected(BadAmount) ==>
      |tokens| >= 5 && FindUserByDisplayNameOrUsername(guild.members, tokens[1]).Some?
      && Lower(tokens[2]) == TemporaryRoleName && FindRoleFromName(guild.roles, TemporaryRoleName).Some?
      && ParseAmount(tokens[3]).None?
    ensures r == Rejected(UnknownTimeUnit) ==>
      |tokens| >= 5 && FindUserByDisplayNameOrUsername(guild.members, tokens[1]).Some?
      && Lower(tokens[2]) == TemporaryRoleName && FindRoleFromName(guild.roles, TemporaryRoleName).Some?
      && ParseAmount(tokens[3]).Some? && ParseUnit(tokens[4]).None?
    ensures r.Granted? <==>
      |tokens| >= 5 && FindUserByDisplayNameOrUsername(guild.members, tokens[1]).Some?
      && Lower(tokens[2]) == TemporaryRoleName && FindRoleFromName(guild.roles, TemporaryRoleName).Some?
      && ParseAmount(tokens[3]).Some? && ParseUnit(tokens[4]).Some?
    ensures r.Granted? ==>
      r.userId == FindUserByDisplayNameOrUsername(guild.members, tokens[1]).value.id
      && r.roleId == FindRoleFromName(guild.roles, TemporaryRoleName).value.id
      && r.delayMillis == DelayMillis(ParseAmount(tokens[3]).value, ParseUnit(tokens[4]).value)
      && r.delayMillis >= 60000
  {
    if |tokens| < 5 then Rejected(WrongArgumentCount)
    else match FindUserByDisplayNameOrUsername(guild.members, tokens[1])
      case None => Rejected(UnknownUser(tokens[1]))
      case Some(user) =>
        var roleName := Lower(tokens[2]);
        if roleName != TemporaryRoleName then Rejected(RoleNotAllowed)
        else match FindRoleFromName(guild.roles, roleName)
          case None => Rejected(UnknownRole(roleName))
          case Some(role) =>
            match ParseAmount(tokens[3])
            case None => Rejected(BadAmount)
            case Some(amount) =>
              match ParseUnit(tokens[4])
              case None => Rejected(UnknownTimeUnit)
              case Some(u) => Granted(user.id, role.id, DelayMillis(amount, u))
  }

  /** Whatever the arguments, the only role that can be granted is one named
      `shush` in some letter case. */
  lemma OnlyShushIsGranted(tokens: seq<string>, guild: Guild)
    ensures var r := GiveTemporaryRole(tokens, guild);
      r.Granted? ==> exists role :: role in guild.roles && role.id == r.roleId
                                  && SameIgnoringCase(role.name, TemporaryRoleName)
  {
    var r := GiveTemporaryRole(tokens, guild);
    if r.Granted? {
      var role := FindRoleFromName(guild.roles, TemporaryRoleName).value;
      assert role in guild.roles && role.id == r.roleId;
    }
  }

  /** The delay the code schedules differs from the requested one exactly
      when the amount is beyond the 32-bit limit for its unit. */
  lemma GrantDelayAsWritten(tokens: seq<string>, guild: Guild)
    requires GiveTemporaryRole(tokens, guild).Granted?
    ensures var r := GiveTemporaryRole(tokens, guild);
      var amount := ParseAmount(tokens[3]).value;
      var u := ParseUnit(tokens[4]).value;
      DelayMillisAsWritten(amount, u) == r.delayMillis <==> amount <= MaxAmount(u)
  {
    AsWrittenDelayFitsIff(ParseAmount(tokens[3]).value, ParseUnit(tokens[4]).value);
  }
}

=== FILE: seqs.dfy ===
/** Sequence searches shared by the lookups (`FirstOrDefault`, `find`, the
    first-match `foreach` loops). */
module Seqs {

  import opened Wrappers

  /** The index of the first element satisfying `p`, if there is one. */
  function FirstIndex<T>(s: seq<T>, p: T -> bool): (r: Option<nat>)
    ensures r.Some? ==> r.value < |s| && p(s[r.value])
    ensures r.Some? ==> forall j :: 0 <= j < r.value ==> !p(s[j])
    ensures r.None? <==> forall j :: 0 <= j < |s| ==> !p(s[j])
    decreases |s|
  {
    if |s| == 0 then None
    else if p(s[0]) then Some(0)
    else match FirstIndex(s[1..], p)
      case None => None
      case Some(k) => Some(k + 1)
  }
}

=== FILE: text.dfy ===
/** Strings as the bot sees them: case mapping, `Split(' ')`, `Join`, and the
    decimal form of integers that `ToString`/`TryParse` produce and accept.
    Case mapping is ASCII-only. */
module Text {

  import opened Wrappers

  // ---------------------------------------------------------------------------
  // Case mapping (`ToLower`, `ToUpper`, `toUpperCase`)
  // ---------------------------------------------------------------------------

  function LowerChar(c: char): char
  {
    if 'A' <= c <= 'Z' then (c as int + 32) as char else c
  }

  function UpperChar(c: char): char
  {
    if 'a' <= c <= 'z' then (c as int - 32) as char else c
  }

  function Lower(s: string): (r: string)
    ensures |r| == |s|
  {
    seq(|s|, i requires 0 <= i < |s| => LowerChar(s[i]))
  }

  function Upper(s: string): (r: string)
    ensures |r| == |s|
  {
    seq(|s|, i requires 0 <= i < |s| => UpperChar(s[i]))
  }

  /** `a.ToLower() == b.ToLower()`. */
  predicate SameIgnoringCase(a: string, b: string)
  {
    Lower(a) == Lower(b)
  }

  /** Upper-casing only ever maps an ASCII letter to its capital: a string whose
      upper-case form is a given all-capitals word spells that word in some mix
      of cases. */
  lemma UpperSpellsWord(s: string, w: string)
    requires Upper(s) == w
    requires forall i :: 0 <= i < |w| ==> 'A' <= w[i] <= 'Z'
    ensures |s| == |w|
    ensures forall i :: 0 <= i < |s| ==> s[i] == w[i] || s[i] == LowerChar(w[i])
  {
    forall i | 0 <= i < |s|
      ensures s[i] == w[i] || s[i] == LowerChar(w[i])
    {
      assert UpperChar(s[i]) == w[i];
    }
  }

  // ---------------------------------------------------------------------------
  // Splitting and joining on one separator character
  // ---------------------------------------------------------------------------

  /** .NET `s.Split(c)` without options: every separator ends a piece, empty
      pieces are kept, and there is always at least one piece. */
  function SplitOn(s: string, c: char): (r: seq<string>)
    ensures |r| >= 1
    ensures forall k :: 0 <= k < |r| ==> c !in r[k]
    decreases |s|
  {
    if |s| == 0 then [""]
    else
      var rest := SplitOn(s[1..], c);
      if s[0] == c then [""] + rest
      else [[s[0]] + rest[0]] + rest[1..]
  }

  /** `string.Join(c, pieces)` (JavaScript `join`). */
  function JoinWith(pieces: seq<string>, c: char): string
    decreases |pieces|
  {
    if |pieces| == 0 then ""
    else if |pieces| == 1 then pieces[0]
    else pieces[0] + [c] + JoinWith(pieces[1..], c)
  }

  /** Splitting loses nothing: joining the pieces with the separator gives the input back. */
  lemma {:induction false} JoinSplit(s: string, c: char)
    ensures JoinWith(SplitOn(s, c), c) == s
    decreases |s|
  {
    if |s| == 0 {
    } else {
      var rest := SplitOn(s[1..], c);
      JoinSplit(s[1..], c);
      if s[0] == c {
        assert SplitOn(s, c) == [""] + rest;
        assert ([""] + rest)[1..] == rest;
        assert JoinWith([""] + rest, c) == "" + [c] + JoinWith(rest, c);
        assert s == [s[0]] + s[1..];
      } else {
        var r := SplitOn(s, c);
        assert r == [[s[0]] + rest[0]] + rest[1..];
        if |rest| == 1 {
          assert JoinWith(rest, c) == rest[0];
          assert s == [s[0]] + s[1..];
        } else {
          assert r[1..] == rest[1..];
          assert JoinWith(r, c) == [s[0]] + rest[0] + [c] + JoinWith(rest[1..], c);
          assert JoinWith(rest, c) == rest[0] + [c] + JoinWith(rest[1..], c);
          assert s == [s[0]] + s[1..];
        }
      }
    }
  }

  /** Prefixing a separator-free text only extends the first piece. */
  lemma {:induction false} SplitPrefix(a: string, t: string, c: char)
    requires c !in a
    ensures SplitOn(a + t, c) == [a + SplitOn(t, c)[0]] + SplitOn(t, c)[1..]
    decreases |a|
  {
    if |a| == 0 {
      assert a + t == t;
      var r := SplitOn(t, c);
      assert r == [r[0]] + r[1..];
      assert a + r[0] == r[0];
    } else {
      SplitPrefix(a[1..], t, c);
      assert (a + t)[1..] == a[1..] + t;
      assert (a + t)[0] == a[0];
      assert [a[0]] + (a[1..] + SplitOn(t, c)[0]) == a + SplitOn(t, c)[0];
    }
  }

  /** Joining separator-free pieces and splitting again gives the pieces back. */
  lemma {:induction false} SplitJoin(pieces: seq<string>, c: char)
    requires |pieces| >= 1
    requires forall k :: 0 <= k < |pieces| ==> c !in pieces[k]
    ensures SplitOn(JoinWith(pieces, c), c) == pieces
    decreases |pieces|
  {
    if |pieces| == 1 {
      SplitPrefix(pieces[0], "", c);
      assert pieces[0] + "" == pieces[0];
    } else {
      var tail := JoinWith(pieces[1..], c);
      SplitJoin(pieces[1..], c);
      SplitPrefix(pieces[0], [c] + tail, c);
      assert pieces[0] + [c] + tail == pieces[0] + ([c] + tail);
      assert ([c] + tail)[1..] == tail;
      var sc := SplitOn([c] + tail, c);
      assert sc == [""] + SplitOn(tail, c);
      assert sc[0] == "" && sc[1..] == pieces[1..];
      assert pieces[0] + sc[0] == pieces[0];
      assert pieces == [pieces[0]] + pieces[1..];
    }
  }

  // ---------------------------------------------------------------------------
  // Words: `Split(' ').Where(s => s.Length != 0)`
  // ---------------------------------------------------------------------------

  function NonEmpty(pieces: seq<string>): (r: seq<string>)
    ensures forall k :: 0 <= k < |r| ==> r[k] != "" && r[k] in pieces
    decreases |pieces|
  {
    if |pieces| == 0 then []
    else if pieces[0] == "" then NonEmpty(pieces[1..])
    else [pieces[0]] + NonEmpty(pieces[1..])
  }

  /** The space-separated words of `s`, with the empty pieces that runs of spaces produce dropped. */
  function Words(s: string): (r: seq<string>)
    ensures forall k :: 0 <= k < |r| ==> r[k] != "" && ' ' !in r[k]
  {
    NonEmpty(SplitOn(s, ' '))
  }

  lemma {:induction false} NonEmptyKeepsNonEmpty(pieces: seq<string>)
    requires forall k :: 0 <= k < |pieces| ==> pieces[k] != ""
    ensures NonEmpty(pieces) == pieces
    decreases |pieces|
  {
    if |pieces| > 0 {
      NonEmptyKeepsNonEmpty(pieces[1..]);
      assert pieces == [pieces[0]] + pieces[1..];
    }
  }

  /** Words is the inverse of joining non-empty, space-free words with single spaces. */
  lemma WordsOfJoin(ws: seq<string>)
    requires forall k :: 0 <= k < |ws| ==> ws[k] != "" && ' ' !in ws[k]
    ensures Words(JoinWith(ws, ' ')) == ws
  {
    if |ws| == 0 {
      assert SplitOn("", ' ') == [""];
      assert NonEmpty([""]) == NonEmpty([""][1..]);
    } else {
      SplitJoin(ws, ' ');
      NonEmptyKeepsNonEmpty(ws);
    }
  }

  /** A text has no words exactly when it is made of spaces only. */
  lemma {:induction false} NoWordsIffBlank(s: string)
    ensures Words(s) == [] <==> forall i :: 0 <= i < |s| ==> s[i] == ' '
    decreases |s|
  {
    if |s| > 0 {
      NoWordsIffBlank(s[1..]);
      var rest := SplitOn(s[1..], ' ');
      if s[0] == ' ' {
        assert SplitOn(s, ' ') == [""] + rest;
        assert ([""] + rest)[1..] == rest;
        assert Words(s) == Words(s[1..]);
        assert (forall i :: 0 <= i < |s| ==> s[i] == ' ') <==> (forall i :: 0 <= i < |s[1..]| ==> s[1..][i] == ' ');
      } else {
        assert SplitOn(s, ' ')[0] == [s[0]] + rest[0];
        assert Words(s) != [];
      }
    }
  }

  /** A non-empty piece without spaces. */
  predicate IsWord(w: string) { w != "" && ' ' !in w }

  lemma WordAlone(w: string)
    requires IsWord(w)
    ensures Words(w) == [w]
  {
    WordsOfJoin([w]);
  }

  /** Splitting at one separator concatenates the splits of the two sides. */
  lemma {:induction false} SplitAtSeparator(a: string, b: string, c: char)
    ensures SplitOn(a + [c] + b, c) == SplitOn(a, c) + SplitOn(b, c)
    decreases |a|
  {
    var x := a + [c] + b;
    if |a| == 0 {
      assert x == [c] + b;
      assert x[1..] == b;
    } else {
      assert x[0] == a[0];
      assert x[1..] == a[1..] + [c] + b;
      SplitAtSeparator(a[1..], b, c);
      var r1 := SplitOn(a[1..], c);
      var r2 := SplitOn(b, c);
      if a[0] == c {
        assert [""] + (r1 + r2) == [""] + r1 + r2;
      } else {
        ExtendFirstPiece([a[0]], r1, r2);
      }
    }
  }

  lemma ExtendFirstPiece(h: string, r1: seq<string>, r2: seq<string>)
    requires |r1| >= 1
    ensures [h + (r1 + r2)[0]] + (r1 + r2)[1..] == [h + r1[0]] + r1[1..] + r2
  {
    assert (r1 + r2)[0] == r1[0];
    assert (r1 + r2)[1..] == r1[1..] + r2;
  }

  lemma {:induction false} NonEmptyAppend(x: seq<string>, y: seq<string>)
    ensures NonEmpty(x + y) == NonEmpty(x) + NonEmpty(y)
    decreases |x|
  {
    if |x| == 0 {
      assert x + y == y;
    } else {
      assert (x + y)[1..] == x[1..] + y;
      NonEmptyAppend(x[1..], y);
    }
  }

  /** The words on either side of a space. */
  lemma WordsAroundSpace(a: string, b: string)
    ensures Words(a + " " + b) == Words(a) + Words(b)
  {
    SplitAtSeparator(a, b, ' ');
    NonEmptyAppend(SplitOn(a, ' '), SplitOn(b, ' '));
  }

  /** A gap of one or more spaces separates words like a single space. */
  lemma {:induction false} WordsAroundGap(p: string, g: string, q: string)
    requires |g| >= 1 && forall k :: 0 <= k < |g| ==> g[k] == ' '
    ensures Words(p + g + q) == Words(p) + Words(q)
    decreases |g|
  {
    if |g| == 1 {
      assert g == " ";
      WordsAroundSpace(p, q);
    } else {
      var g' := g[1..];
      assert p + g + q == p + " " + (g' + q);
      WordsAroundSpace(p, g' + q);
      WordsAroundGap("", g', q);
      assert "" + g' + q == g' + q;
      assert Words("") == [] by {
        WordsOfJoin([]);
        assert JoinWith([], ' ') == "";
      }
    }
  }

  // ---------------------------------------------------------------------------
  // Decimal integers (`ToString()` and `TryParse`)
  // ---------------------------------------------------------------------------

  predicate IsDigit(c: char) { '0' <= c <= '9' }

  predicate AllDigits(s: string) { forall i :: 0 <= i < |s| ==> IsDigit(s[i]) }

  function DigitChar(d: nat): char
    requires d < 10
  {
    ('0' as int + d) as char
  }

  function DigitValue(c: char): nat
    requires IsDigit(c)
  {
    c as int - '0' as int
  }

  /** The invariant-culture decimal form of a non-negative integer: no sign,
      no leading zeros, no separators. */
  function Decimal(n: nat): (r: string)
    ensures |r| >= 1 && AllDigits(r)
    ensures n >= 10 ==> r[0] != '0'
    decreases n
  {
    if n < 10 then [DigitChar(n)] else Decimal(n / 10) + [DigitChar(n % 10)]
  }

  /** The value of a run of decimal digits. */
  function DigitsValue(s: string): nat
    requires AllDigits(s)
    decreases |s|
  {
    if |s| == 0 then 0 else DigitsValue(s[..|s| - 1]) * 10 + DigitValue(s[|s| - 1])
  }

  lemma {:induction false} DigitsValueOfDecimal(n: nat)
    ensures DigitsValue(Decimal(n)) == n
    decreases n
  {
    if n >= 10 {
      var d := Decimal(n);
      DigitsValueOfDecimal(n / 10);
      assert d[..|d| - 1] == Decimal(n / 10);
    }
  }

  /** The text `TryParse` accepts: an optional sign followed by at least one decimal digit. */
  predicate IntegerSyntax(s: string)
  {
    (|s| >= 1 && AllDigits(s)) || (|s| >= 2 && (s[0] == '-' || s[0] == '+') && AllDigits(s[1..]))
  }

  /** `TryParse` with `NumberStyles.Integer` and the range check left to the
      caller: an optional sign followed by at least one decimal digit. */
  function ParseInteger(s: string): (r: Option<int>)
    ensures r.Some? <==> IntegerSyntax(s)
    ensures |s| >= 1 && AllDigits(s) ==> r == Some(DigitsValue(s))
    ensures |s| >= 2 && s[0] == '-' && AllDigits(s[1..]) ==> r == Some(-(DigitsValue(s[1..]) as int))
    ensures |s| >= 2 && s[0] == '+' && AllDigits(s[1..]) ==> r == Some(DigitsValue(s[1..]))
    ensures r.Some? && s[0] == '-' ==> r.value <= 0
    ensures r.Some? && s[0] != '-' ==> r.value >= 0
  {
    if |s| >= 2 && s[0] == '-' && AllDigits(s[1..]) then Some(0 - DigitsValue(s[1..]) as int)
    else if |s| >= 2 && s[0] == '+' && AllDigits(s[1..]) then Some(DigitsValue(s[1..]))
    else if |s| >= 1 && AllDigits(s) then Some(DigitsValue(s))
    else None
  }

  /** The printed form of every non-negative integer parses back to it. */
  lemma ParseDecimal(n: nat)
    ensures ParseInteger(Decimal(n)) == Some(n)
  {
    DigitsValueOfDecimal(n);
  }

  /** A minus sign in front of the printed form gives the negated number, and
      a plus sign leaves it as it is. */
  lemma ParseSignedDecimal(n: nat)
    ensures ParseInteger(['-'] + Decimal(n)) == Some(-(n as int))
    ensures ParseInteger(['+'] + Decimal(n)) == Some(n)
  {
    DigitsValueOfDecimal(n);
    assert (['-'] + Decimal(n))[1..] == Decimal(n);
    assert (['+'] + Decimal(n))[1..] == Decimal(n);
  }

  /** `T.TryParse(s, out v)` for an integer type whose values are `lo <= v < hi`:
      `None` is the `false` return (the out value is then 0). */
  function TryParseInRange(s: string, lo: int, hi: int): (r: Option<int>)
    ensures r.Some? ==> lo <= r.value < hi && ParseInteger(s) == Some(r.value)
    ensures r.None? ==> ParseInteger(s).None? || !(lo <= ParseInteger(s).value < hi)
  {
    match ParseInteger(s)
    case Some(v) => if lo <= v < hi then Some(v) else None
    case None => None
  }
}

=== FILE: wrappers.dfy ===
/** Failure-carrying values used for the bot's lookups and parsers: `null`
    returns become `Option`, thrown exceptions become `Result`. */
module Wrappers {

  datatype Option<+T> = None | Some(value: T)

  datatype Result<+T, +E> = Ok(value: T) | Err(error: E)
}
